=== FILE: README.md ===
# FitPlan quiz funnel and motivation quiz, in Dafny

This project models the client-side logic of a small fitness web app. The app has two pages.

**The fitness funnel (`app/page.tsx`).** It runs a landing screen and a nine-step quiz: seven multiple-choice questions, then a name field and an e-mail field. Then it shows a results screen. Three generators read the quiz answers:
- `generateWorkoutPlan` is an ordered decision table on goal, experience and training days. It picks one of eleven fixed weekly rotations, and `training == "gym"` selects the gym exercise lists.
- `generateMealPlan` works out a daily calorie target from weight, age and goal. It then splits the target into four meals, and `getAgeTailoredFoods` fills each meal with foods.
- `generateGroceryList` is a lookup on diet and age.

**The motivation quiz (`app/mental-quiz/page.tsx`).** Three questions each offer the same five personas. `calculateResult` takes a majority vote, and a tie goes to the persona answered first. The result page offers a contact form for e-mail or phone. The phone number is reformatted on every keystroke. Submitting checks the contact, and only a valid contact reaches the success page.

Modules, leaves first:
- `JsRuntime` (`js_runtime.dfy`) models the ECMAScript pieces the logic relies on:
  - `Number.parseInt` with no radix: leading white space, sign, `0x` prefix, longest digit run, and NaN as `None`;
  - the `n || d` fallback on numbers;
  - `Math.round` on a value given in hundredths.
- `QuizAnswers` (`quiz_answers.dfy`) is the eleven-field answer record, in the key order of its initial value.
- `WorkoutTemplates` and `WorkoutPlan` (`workout_templates.dfy`, `workout_plan.dfy`) hold the rotations and the decision table.
- `MealPlanner` (`meal_plan.dfy`) holds the calorie arithmetic, the food tables and the grocery lists.
- `CalorieAgeOrder` (`calorie_age_order.dfy`) shows how the age answer orders the calorie target.
- `QuizFunnel` (`quiz_funnel.dfy`) is the funnel's step machine. `FunnelPlans` (`funnel_plans.dfy`) connects the machine to the planner.
- `Contact` (`contact.dfy`) covers the e-mail pattern, the phone check and the phone format.
- `PersonaVote` (`persona_vote.dfy`) is `calculateResult`. `MentalQuiz` (`mental_quiz.dfy`) is the motivation quiz's step machine.

Representation choices:
- Exercise lists and food lists are transcribed as string constants. A generated workout day or meal does not hold its lists directly. It holds a key: a `ListKey` of rotation, slot and gym flag, or a `FoodKey` of meal, diet group and age group. The lists are looked up from that key. This keeps the rotations' shape apart from their text, and it is exactly what the source selects.
- Multipliers (1.15, 1.05, 1.0, 0.95) and meal shares (0.25, 0.35, 0.3, 0.1) are exact integer hundredths. `Math.round` is round-half-up.
- The 300 ms auto-advance delay of the funnel is taken as instantaneous.
- Personas are an enumeration. The option values are exactly the five persona keys, so nothing is lost. `calculateResult` is proved for any answer type with equality.

Behaviour of the code worth noting:
- A plan without push/pull/legs has at most 5 days, even with 6 or more training days. Only the push/pull/legs rotation has a six-day version. With 5 days it gets the four-day rotation.
- There are five warm-up kinds. The gentle rotations use their own warm-up (lines 713-719). Each rest day has an inline recovery warm-up.
- The six-day push/pull/legs rotation is push, pull, legs, rest, push, pull. It has two different push days and two different pull days (`WorkoutPlan.SixDayRepeatsDiffer`), and only one legs day.

Consequences the proofs make visible:
- The frequency question offers only "2" to "5". So the six-day rotation is never generated from answers given in the quiz (`FunnelPlans.QuizNeverPlansSixDays`). It can only come from answers restored from storage.
- Weight and height are never asked. The calorie target therefore always uses the 150 lb default unless stored answers supply a weight.
- The phone field keeps at most ten digits, while the check accepts up to fifteen. So a number of 11 to 15 digits can never be entered (`Contact.FormattedValidHasAtMostTenDigits`).

## Model

| member | source | states |
|---|---|---|
| JsRuntime.OrElse | app/page.tsx:118 | the logical-or fallback on a parsed number: NaN and 0 give the fallback, any other value is kept |
| JsRuntime.RoundHundredths | app/page.tsx:953-957 | `Math.round(n/100)` is the integer within half a unit of n/100, halves rounded up |
| JsRuntime.RoundHundredthsMonotonic | app/page.tsx:967-982 | rounding never reverses the order of two values |
| JsRuntime.TrimStart | app/page.tsx:118 | `parseInt` skips exactly the leading white space: the removed prefix is all white space and the rest does not start with any |
| JsRuntime.DigitPrefix | app/page.tsx:934 | `parseInt` reads the longest prefix of radix digits: it is a prefix, all digits, and the next character is not a digit |
| JsRuntime.NatString | app/page.tsx:118 | the decimal spelling of a natural number is non-empty, all digits, with no leading zero |
| JsRuntime.NatStringValue | app/page.tsx:118 | the digit value of the decimal spelling of n is n |
| JsRuntime.NatStringParses | app/page.tsx:118 | `parseInt` reads back every natural number from its spelling, whatever non-digit text follows |
| JsRuntime.NegatedNatStringParses | app/page.tsx:934 | `parseInt` reads back negative numbers from `-` and their spelling |
| JsRuntime.DecimalStringParses | app/page.tsx:934 | `parseInt(String(n) + t)` is n for every integer n and every non-digit continuation t |
| JsRuntime.ParseIntSkipsWhiteSpace | app/page.tsx:118 | a leading white-space character never changes what `parseInt` reads |
| JsRuntime.ParseIntNoDigits | app/page.tsx:118 | text with no digit after white space and sign is NaN |
| QuizAnswers.Set | app/page.tsx:100-101 | `{ ...prev, [field]: value }` sets the named field and leaves every other field unchanged |
| QuizAnswers.SetTwice | app/page.tsx:101 | a second answer to the same field replaces the first |
| QuizAnswers.SetCurrentValue | app/page.tsx:101 | re-storing a field's current value changes nothing |
| WorkoutPlan.DaysPerWeek | app/page.tsx:118 | training days are never 0: the parsed frequency when it is a non-zero number, otherwise 3 |
| WorkoutPlan.DaysPerWeekReadsNumber | app/page.tsx:118 | any frequency spelling a whole number trains that many days, and "0" falls back to 3 |
| WorkoutPlan.DaysPerWeekUnanswered | app/page.tsx:118 | an unanswered frequency trains 3 days |
| WorkoutPlan.SelectSplitTable | app/page.tsx:152-925 | push/pull/legs is chosen exactly for intermediate or advanced build-muscle with at least 3 days; fat-loss exactly for the remaining lose-fat answers; the rotation length follows the 6/4/3 and 5/4/2/3 tiers |
| WorkoutPlan.ScheduleShape | app/page.tsx:155-923 | every rotation has its tier's number of days, and day i shows the i-th lists of the rotation in the chosen variant |
| WorkoutPlan.ScheduleFirstDay | app/page.tsx:155-923 | only push/pull/legs rotations open with a push day |
| WorkoutPlan.ScheduleRestDays | app/page.tsx:234-246 | in the six- and four-day push/pull/legs rotations, index 3 is the only rest day, a Thursday with "Active Recovery"; every other day carries the user's duration |
| WorkoutPlan.ScheduleWarmups | app/page.tsx:126-150 | every day's warm-up is the one its day type calls for |
| WorkoutPlan.ScheduleWeekdays | app/page.tsx:155-923 | every rotation runs forward through the week with no repeated weekday |
| WorkoutPlan.ScheduleIgnoresGym | app/page.tsx:161-180 | the gym and home variants of a rotation have the same days, types, durations and warm-ups |
| WorkoutPlan.PlanLength | app/page.tsx:152-925 | `generateWorkoutPlan` has 6/4/3 days for push/pull/legs (at least 6 days, 4 or 5, 3) and 5/4/2/3 days otherwise |
| WorkoutPlan.GymVariantChosen | app/page.tsx:122 | each day shows the lists of its own position, in the gym variant exactly when the training answer is the string "gym" |
| WorkoutPlan.PushPullLegsExactly | app/page.tsx:152 | a plan opens with a push day exactly when the push/pull/legs branch condition holds |
| WorkoutPlan.RestRotationsSelected | app/page.tsx:152-300 | the rotations with a rest day are chosen exactly for push/pull/legs users with at least 4 days |
| WorkoutPlan.RestDayPlacement | app/page.tsx:234-246 | a generated plan has a rest day exactly when push/pull/legs with at least 4 days applies, at index 3, Thursday, "Active Recovery"; all other days carry the duration answer |
| WorkoutPlan.WarmupMatchesDayType | app/page.tsx:126-150 | every generated day has the warm-up matching its type |
| WorkoutPlan.PlanWeekdaysAscending | app/page.tsx:155-923 | generated days are in strictly increasing weekday order |
| WorkoutPlan.TrainingOnlyChangesLists | app/page.tsx:122 | changing the training answer never changes days, types, durations or warm-ups |
| WorkoutPlan.NonGymAnswersAgree | app/page.tsx:122 | "home-equipment", "bodyweight" and any other non-gym answer give identical plans |
| WorkoutPlan.AdvancedGymSixDays | app/page.tsx:153-299 | advanced build-muscle at the gym with at least 6 days gets push, pull, legs, rest, push, pull with the gym lists |
| WorkoutPlan.SixDayRepeatsDiffer | app/page.tsx:155-299 | in both the gym and the home variant, the second push day of the six-day rotation differs from the first, and the second pull day from the first |
| MealPlanner.EffectiveWeight | app/page.tsx:934-936 | the weight used is within [80, 400], and it is 150, 200 or the parsed answer |
| MealPlanner.EffectiveWeightReadsNumber | app/page.tsx:934-936 | a numeric weight is used as is within [80, 400]; below 80 (and 0) gives 150, above 400 gives 200 |
| MealPlanner.EffectiveWeightUnreadable | app/page.tsx:934 | a weight that is not a number counts as 150 |
| MealPlanner.AgeMultiplier | app/page.tsx:939-948 | the age multiplier is between 0.95 and 1.15; which age gets more is stated by `CalorieAgeOrder.AgeOrdersRawCalories` and `CalorieAgeOrder.AgeOrdersCalories` |
| MealPlanner.RawCalories | app/page.tsx:952-958 | the raw target is `(weight * k + b) * multiplier` rounded to the nearest integer, for the goal's (k, b) |
| MealPlanner.ClampCalories | app/page.tsx:964-965 | the clamp lands in [1200, 3500] and keeps values already inside |
| MealPlanner.BaseCalories | app/page.tsx:952-965 | the calorie target is within [1200, 3500] for every goal, weight and age |
| MealPlanner.ClampMonotonic | app/page.tsx:964-965 | clamping keeps order |
| MealPlanner.BaseCaloriesMonotonic | app/page.tsx:934-965 | a heavier weight never gets a lower calorie target |
| MealPlanner.RawCaloriesGoalOrder | app/page.tsx:952-958 | for the same weight and age, the lose-fat raw target is lowest and build-muscle highest |
| MealPlanner.GoalOrdersCalories | app/page.tsx:952-965 | the same ordering of goals survives the clamp |
| CalorieAgeOrder.AgeOrdersRawCalories | app/page.tsx:939-958 | before the clamp, for every goal and non-negative weight, a younger age group never gets fewer calories: "50+" <= "36-50" <= "25-35" <= "18-24", with "under-18" equal to "18-24"; any other age answer gets the "36-50" baseline |
| CalorieAgeOrder.AgeOrdersCalories | app/page.tsx:939-965 | the same age order, and the baseline for unrecognised ages, hold for the clamped daily target |
| MealPlanner.SlotCalories | app/page.tsx:967-982 | each meal's calories are its share of the target, rounded to the nearest integer |
| MealPlanner.SlotsAddUpToBase | app/page.tsx:967-987 | the four rounded meal values add up to within -1 and +2 of the target |
| MealPlanner.MealPlanShape | app/page.tsx:964-989 | the plan is Breakfast, Lunch, Dinner, Snack at 25/35/30/10 % with their food lookups, and the total is the sum of the four |
| MealPlanner.KeyNamesMeal | app/page.tsx:995-1039 | the meal keys passed to the food lookup select their own meal branch |
| MealPlanner.MealShowsLookup | app/page.tsx:966-988 | each meal's foods are `getAgeTailoredFoods` of its key, diet and age |
| MealPlanner.TotalNearBase | app/page.tsx:964-989 | `totalCalories` lies within -1 and +2 of a target in [1200, 3500] |
| MealPlanner.LoseFatScenarioTarget | app/page.tsx:934-965 | lose-fat, 150 lb, 25-35 gives a target of 2100 |
| MealPlanner.LoseFatScenarioBase | app/page.tsx:930-965 | answers with that goal, a weight reading 150 and that age give the target 2100 |
| MealPlanner.LoseFatScenario | app/page.tsx:930-989 | those answers give 525/735/630/210 and a total of 2100 |
| MealPlanner.OtherDietsShareTable | app/page.tsx:992-1055 | any diet other than "vegan" and "keto" gets the same foods as "none" |
| MealPlanner.OtherKeysAreSnacks | app/page.tsx:1039-1054 | any meal key other than breakfast, lunch and dinner gets the snack foods |
| MealPlanner.OtherAgesShareBaseline | app/page.tsx:993-995 | any age other than under-18, 18-24 and 50+ gets the middle lists |
| MealPlanner.KetoOlderDinner | app/page.tsx:1032 | keto, 50+, dinner is Cod, Zucchini, Olive oil, Herbs |
| MealPlanner.TailoredListsAreLonger | app/page.tsx:997-1054 | younger lists hold exactly one food more than the middle list; older lists are longer than it; middle lists have 3 foods (1 for snacks) |
| MealPlanner.YoungerListsExtendBaseline | app/page.tsx:997-1054 | every younger list starts with the whole middle list, except the vegan breakfast, which keeps the first two middle foods and drops "Plant milk" |
| MealPlanner.FoodListsHaveNoRepeats | app/page.tsx:997-1054 | no food list names a food twice |
| MealPlanner.GroceryBase | app/page.tsx:1061-1110 | the base grocery list has 11 items for vegan and keto and 10 otherwise |
| MealPlanner.GroceryExtras | app/page.tsx:1073-1111 | the 50+ extras are 5 items |
| MealPlanner.GroceriesHaveNoRepeats | app/page.tsx:1061-1111 | no grocery list with its extras repeats an item |
| MealPlanner.GroceryListHasNoRepeats | app/page.tsx:1057-1115 | `generateGroceryList` never repeats an item |
| MealPlanner.GroceryListShape | app/page.tsx:1057-1115 | 11 items for vegan and keto, else 10, plus exactly 5 for "50+", with the base list as a prefix |
| QuizFunnel.OptionsAreNonEmpty | app/page.tsx:1207-1269 | steps 0-6 offer options, and no option value is empty; steps beyond offer none |
| QuizFunnel.StepKeepsValid | app/page.tsx:100-113 | with the auto-advance taken as instantaneous, no action takes the quiz step outside [0, 8], leaves landing away from step 0 or results away from step 8, or loses a chosen answer below the current step |
| QuizFunnel.ReachableStatesAreValid | app/page.tsx:1395 | with the auto-advance taken as instantaneous, every reachable state satisfies that invariant |
| QuizFunnel.ResultsFollowAllChoices | app/page.tsx:1505-1518 | with the auto-advance taken as instantaneous, the results screen is only reached with all seven multiple-choice answers given |
| QuizFunnel.AnswerChangesOnlyItsField | app/page.tsx:100-101 | an answer stores its value in the named field only |
| QuizFunnel.AutoAdvanceOnlyOnChoices | app/page.tsx:103-112 | an answer advances one step exactly on steps up to 6 and never changes the screen |
| QuizFunnel.NextFromLastStepShowsResults | app/page.tsx:1512-1518 | Next on step 8 shows the results |
| QuizFunnel.BackFromFirstStepLeavesQuiz | app/page.tsx:1395 | Back on step 0 returns to landing and changes nothing else |
| QuizFunnel.StepProgressesByAtMostOne | app/page.tsx:1315 | no action moves more than one place along landing, steps 0-8, results |
| QuizFunnel.RunProgress | app/page.tsx:1505-1518 | from a valid state, any n actions keep the invariant and advance at most n places |
| QuizFunnel.ResultsTakeTenActions | app/page.tsx:1395-1522 | the results screen needs at least ten actions |
| QuizFunnel.RunAppend | app/page.tsx:1395-1522 | running two action lists in turn is running their concatenation |
| QuizFunnel.ChooseAdvances | app/page.tsx:1432-1433 | clicking an option on a question stores it under the question's field and shows the next step |
| QuizFunnel.FirstOptions | app/page.tsx:1417-1433 | seven option clicks from step 0 reach step 7 |
| QuizFunnel.FastestVisit | app/page.tsx:1315-1522 | Start, seven option clicks and two Next reach the results screen, the fewest actions possible |
| FunnelPlans.SingleDigitDays | app/page.tsx:118 | a frequency option "2" to "5" trains that many days |
| FunnelPlans.StepKeepsFrequencyOffered | app/page.tsx:1233-1241 | no action stores a frequency other than empty or one of the offered "2" to "5" |
| FunnelPlans.OfferedFrequencyPlans | app/page.tsx:152-925 | an offered frequency trains 2 to 5 days, never gets the six-day rotation, and gives at most 5 days |
| FunnelPlans.QuizNeverPlansSixDays | app/page.tsx:153 | answers given through the quiz never select the six-day push/pull/legs rotation |
| Contact.Digits | app/mental-quiz/page.tsx:69 | `replace(/\D/g, "")` keeps only decimal digits and never lengthens the text |
| Contact.DigitsKeepEveryDigit | app/mental-quiz/page.tsx:69 | every digit of the input is kept as often as it occurs, and no other character is kept |
| Contact.DigitsOfChar | app/mental-quiz/page.tsx:69 | a single character is kept exactly when it is a digit; with `DigitsAppend` this fixes the result, in input order, for every string |
| Contact.DigitsAppend | app/mental-quiz/page.tsx:76 | digit extraction distributes over concatenation |
| Contact.FormatKeepsFirstTenDigits | app/mental-quiz/page.tsx:74-83 | the formatted number's digits are exactly the first min(n, 10) digits of the input |
| Contact.FormatUsesDigitsAndHyphens | app/mental-quiz/page.tsx:79-82 | the formatted number holds only digits and hyphens |
| Contact.FormatHyphenLayout | app/mental-quiz/page.tsx:79-82 | no hyphen up to 3 digits; one after the third digit for 4-6; a second after the sixth beyond that; nowhere else |
| Contact.FormatIdempotent | app/mental-quiz/page.tsx:413-418 | formatting a formatted number changes nothing, so re-formatting on every keystroke is stable |
| Contact.FormattedValidHasAtMostTenDigits | app/mental-quiz/page.tsx:67-83 | a formatted value passes the phone check exactly when the input had at least 7 digits, and then holds 7 to 10 digits |
| Contact.FirstIndex | app/mental-quiz/page.tsx:63 | the first occurrence of a character, or none |
| Contact.LastIndex | app/mental-quiz/page.tsx:63 | the last occurrence of a character, or none |
| Contact.ValidateEmailMatchesPattern | app/mental-quiz/page.tsx:62-65 | the scan accepts exactly a non-empty local part, `@`, a domain part with a non-empty label, a final `.` and at least two letters |
| Contact.ValidEmailHasOneAt | app/mental-quiz/page.tsx:63 | an accepted address has exactly one `@` |
| PersonaVote.MaxCount | app/mental-quiz/page.tsx:233 | the top score is at least every count and is attained |
| PersonaVote.FirstWithCount | app/mental-quiz/page.tsx:234-235 | `winners[0]` is the first score equal to the top, with no earlier one |
| PersonaVote.TallyMatchesCounts | app/mental-quiz/page.tsx:228-231 | the tally lists each distinct answer once, in first-answered order, with the number of times it was given |
| PersonaVote.DistinctOrder | app/mental-quiz/page.tsx:234 | tally keys keep the order of their first occurrences |
| PersonaVote.ResultIsFirstMajority | app/mental-quiz/page.tsx:227-236 | the result is a given answer with maximal count, the earliest-given among those tied, and undefined only with no answers |
| PersonaVote.ThreeDifferentAnswers | app/mental-quiz/page.tsx:227-236 | three different answers: question 1's answer wins |
| PersonaVote.TwoOfThreeWin | app/mental-quiz/page.tsx:227-236 | an answer given twice out of three wins |
| MentalQuiz.AnswersInIdOrder | app/mental-quiz/page.tsx:229 | `Object.values` of the answers lists stored answers only, includes the answer of every question 1-3 that has one, is empty when none has, starts with the answer to question 1 and ends with the answer to question 3 when those are stored, and is exactly the answers to questions 1, 2 and 3 in that order when all three are stored |
| MentalQuiz.StepKeepsValid | app/mental-quiz/page.tsx:216-252 | no action breaks the page invariant: question in [0, 2], answers under ids 1-3 up to the current question, phone input always formatted, result set exactly after the quiz and equal to the vote, success exactly with a sent, valid contact |
| MentalQuiz.ReachableStatesAreValid | app/mental-quiz/page.tsx:207-214 | every reachable state satisfies that invariant |
| MentalQuiz.ResultIsMajority | app/mental-quiz/page.tsx:216-236 | after the quiz all three answers are stored and the shown persona is their majority, ties going to the earliest question |
| MentalQuiz.SuccessNeedsValidContact | app/mental-quiz/page.tsx:434-456 | success is reached only with a valid contact; an e-mail is sent as typed, a phone of 7-10 digits as code, space, number |
| MentalQuiz.SuccessIsFinal | app/mental-quiz/page.tsx:478-505 | nothing on the success page changes the state |
| MentalQuiz.SelectAdvances | app/mental-quiz/page.tsx:216-222 | an answer before the last question is stored under its id and moves to the next question |
| MentalQuiz.LastSelectShowsResult | app/mental-quiz/page.tsx:223-236 | the last answer is included in the vote and the result page is shown |
| MentalQuiz.GoBackDecrements | app/mental-quiz/page.tsx:239-245 | Back moves to the previous question and keeps the answers; on the first it changes nothing |
| MentalQuiz.SwitchClearsInput | app/mental-quiz/page.tsx:360-380 | switching between e-mail and phone empties the field and the error |
| MentalQuiz.EditFormatsPhone | app/mental-quiz/page.tsx:413-420 | typing clears the error; e-mail is stored as typed, phone as its formatted first ten digits |
| MentalQuiz.EmptyContactCannotSubmit | app/mental-quiz/page.tsx:456 | with an empty field the submit button does nothing |
| MentalQuiz.SubmitSucceedsIffValid | app/mental-quiz/page.tsx:434-455 | on a filled form, submit reaches success exactly for a valid contact, with the right full contact; otherwise only the type's error message changes |
| MentalQuiz.ThreeSelections | app/mental-quiz/page.tsx:216-236 | three clicks from the first question show the vote of the three chosen personas |
| MentalQuiz.ThreeDifferentChoices | app/mental-quiz/page.tsx:216-236 | three different personas chosen in a row: the first wins |

## Left out

- Persistence: the `localStorage` save and restore and its `JSON.parse` (app/page.tsx:85-98) are host I/O. Restored answers are arbitrary strings, which is why the generators are modelled for every input.
- The text export and download in `downloadPDF` (Blob, anchor, clock-dependent dates), `console.log`, and `window.close`. Back on the first question and Close on the success page therefore change no modelled state.
- The 300 ms `setTimeout` of the auto-advance is taken as instantaneous. Two clicks within the delay, which would both read the old step, are not modelled. In the program such a double click advances twice. On the diet question it skips the age question, so the results can be reached with an empty age, and further double clicks push the step past 8. The step-range and all-answered invariants of `QuizFunnel` hold only under the instantaneous advance.
- IEEE-754 doubles: multipliers and shares are exact hundredths. The model rounds an exact .5 up, while the double product may fall just below it and round down. For example, a stored weight of 80 with the general goal and age "18-24" gives (80 * 14 + 250) * 1.15, which is 1575.5 exactly but 1575.4999999999998 as a double: the program shows 1575 and the model 1576. `parseInt` of very long digit strings is exact, with no rounding to a double.
- JSX rendering, CSS, icons, progress bars, the persona names, descriptions and tones, the question texts, and the country-code list. `PickCountry` accepts any code string, and the select offers only codes from that list.
- `components/mental-reps-section.tsx` (timer-driven animations) and `components/fitplan-logo.tsx` (a static SVG) are not part of this model.
- The `isBeginner` and `isMiddleAge` variables of the source are computed but never read, so they have no counterpart.
- MentalQuiz.AnswersInIdOrder: only the ids 1-3 of the three questions are read; the invariant shows no other id is ever stored. For a partly filled record the contract states which answers appear and which come first and last, not the full order; the vote only reads the record once all three are stored.

=== FILE: calorie_age_order.dfy ===
/**
 * How the age answer orders the meal plan's calorie target: `generateMealPlan` gives
 * younger users a higher multiplier and older users a lower one.
 */
module CalorieAgeOrder {
  import opened JsRuntime
  import opened MealPlanner

  /** Younger users get more calories before the clamp: "50+" <= "36-50" <=
      "25-35" <= "18-24", which equals "under-18"; an unrecognised age gets
      the "36-50" baseline. */
  lemma AgeOrdersRawCalories(goal: string, w: int)
    requires w >= 0
    ensures RawCalories(goal, w, "50+") <= RawCalories(goal, w, "36-50")
    ensures RawCalories(goal, w, "36-50") <= RawCalories(goal, w, "25-35")
    ensures RawCalories(goal, w, "25-35") <= RawCalories(goal, w, "18-24")
    ensures RawCalories(goal, w, "18-24") == RawCalories(goal, w, "under-18")
    ensures forall age :: age != "under-18" && age != "18-24" && age != "25-35" && age != "50+" ==>
      RawCalories(goal, w, age) == RawCalories(goal, w, "36-50")
  {
    var f := GoalFormula(goal);
    var x := w * f.perPound + f.allowance;
    assert x >= 0 by {
      assert f == Formula(12, 200) || f == Formula(14, 250) || f == Formula(16, 300);
    }
    RoundHundredthsMonotonic(x * 95, x * 100);
    RoundHundredthsMonotonic(x * 100, x * 105);
    RoundHundredthsMonotonic(x * 105, x * 115);
  }

  /** The age order survives the clamp. */
  lemma AgeOrdersCalories(goal: string, w: int)
    requires w >= 0
    ensures BaseCalories(goal, w, "50+") <= BaseCalories(goal, w, "36-50")
    ensures BaseCalories(goal, w, "36-50") <= BaseCalories(goal, w, "25-35")
    ensures BaseCalories(goal, w, "25-35") <= BaseCalories(goal, w, "18-24")
    ensures BaseCalories(goal, w, "18-24") == BaseCalories(goal, w, "under-18")
    ensures forall age :: age != "under-18" && age != "18-24" && age != "25-35" && age != "50+" ==>
      BaseCalories(goal, w, age) == BaseCalories(goal, w, "36-50")
  {
    AgeOrdersRawCalories(goal, w);
    ClampMonotonic(RawCalories(goal, w, "50+"), RawCalories(goal, w, "36-50"));
    ClampMonotonic(RawCalories(goal, w, "36-50"), RawCalories(goal, w, "25-35"));
    ClampMonotonic(RawCalories(goal, w, "25-35"), RawCalories(goal, w, "18-24"));
  }
}

=== FILE: contact.dfy ===
/**
 * Contact details of the motivation quiz: the e-mail pattern, the phone-number
 * check on its digit count, and the display format of a phone number.
 */
module Contact {
  import opened JsRuntime

  // ---------------------------------------------------------------------------
  // Phone numbers.

  /** `phone.replace(/\D/g, "")`: the decimal digits of the input, in order.
      `DigitsKeepEveryDigit` says no digit is lost; `DigitsOfChar` with
      `DigitsAppend` fixes the order. */
  function Digits(s: string): (d: string)
    ensures |d| <= |s|
    ensures forall i :: 0 <= i < |d| ==> IsDecimalDigit(d[i])
  {
    if s == [] then []
    else if IsDecimalDigit(s[0]) then [s[0]] + Digits(s[1..])
    else Digits(s[1..])
  }

  /** Every digit is kept as often as it occurs, and nothing else is. */
  lemma {:induction false} DigitsKeepEveryDigit(s: string)
    ensures forall c :: multiset(Digits(s))[c] == (if IsDecimalDigit(c) then multiset(s)[c] else 0)
  {
    if s != [] {
      assert s == [s[0]] + s[1..];
      DigitsKeepEveryDigit(s[1..]);
    }
  }

  /** One character is kept exactly when it is a digit. */
  lemma DigitsOfChar(c: char)
    ensures Digits([c]) == if IsDecimalDigit(c) then [c] else []
  {
    assert [c][1..] == [];
  }

  /** `validatePhoneNumber`: between 7 and 15 digits, whatever else is typed. */
  predicate ValidatePhoneNumber(phone: string) {
    7 <= |Digits(phone)| <= 15
  }

  /** `formatPhoneNumber`: the first ten digits grouped 3-3-4 with hyphens. */
  function FormatPhoneNumber(phone: string): string {
    var c := Digits(phone);
    if |c| <= 3 then c
    else if |c| <= 6 then c[..3] + "-" + c[3..]
    else if |c| <= 10 then c[..3] + "-" + c[3..6] + "-" + c[6..]
    else c[..3] + "-" + c[3..6] + "-" + c[6..10]
  }

  function Min(a: int, b: int): int {
    if a <= b then a else b
  }

  predicate AllDigits(s: string) {
    forall i :: 0 <= i < |s| ==> IsDecimalDigit(s[i])
  }

  lemma {:induction false} DigitsOfDigits(s: string)
    requires AllDigits(s)
    ensures Digits(s) == s
  {
    if s != [] {
      DigitsOfDigits(s[1..]);
    }
  }

  lemma {:induction false} DigitsAppend(a: string, b: string)
    ensures Digits(a + b) == Digits(a) + Digits(b)
  {
    if a == [] {
      assert a + b == b;
    } else {
      assert (a + b)[0] == a[0] && (a + b)[1..] == a[1..] + b;
      DigitsAppend(a[1..], b);
    }
  }

  /** The digit groups of the display format: 3, then up to 3, then up to 4. */
  lemma FormatGroups(phone: string)
    ensures var c := Digits(phone);
      var m := Min(|c|, 10);
      var r := FormatPhoneNumber(phone);
      && (m <= 3 ==> r == c[..m])
      && (3 < m <= 6 ==> r == c[..3] + "-" + c[3..m])
      && (6 < m ==> r == c[..3] + "-" + c[3..6] + "-" + c[6..m])
  {
    var c := Digits(phone);
    if |c| <= 3 {
      assert c[..|c|] == c;
    } else if |c| <= 6 {
      assert c[3..|c|] == c[3..];
    } else if |c| <= 10 {
      assert c[6..|c|] == c[6..];
    }
  }

  /** A hyphen contributes no digit. */
  lemma DigitsAcrossHyphen(x: string, y: string)
    ensures Digits(x + "-" + y) == Digits(x) + Digits(y)
  {
    DigitsAppend(x + "-", y);
    DigitsAppend(x, "-");
  }

  lemma TwoGroupsKeepDigits(c: string, m: int)
    requires AllDigits(c) && 3 < m <= |c|
    ensures Digits(c[..3] + "-" + c[3..m]) == c[..m]
  {
    var a, b := c[..3], c[3..m];
    DigitsAcrossHyphen(a, b);
    DigitsOfDigits(a);
    DigitsOfDigits(b);
    assert a + b == c[..m];
  }

  lemma ThreeGroupsKeepDigits(c: string, m: int)
    requires AllDigits(c) && 6 < m <= |c|
    ensures Digits(c[..3] + "-" + c[3..6] + "-" + c[6..m]) == c[..m]
  {
    var a, b, d := c[..3], c[3..6], c[6..m];
    DigitsAcrossHyphen(a + "-" + b, d);
    TwoGroupsKeepDigits(c, 6);
    assert c[..6][..3] == a && c[..6][3..6] == b;
    DigitsOfDigits(d);
    assert c[..6] + d == c[..m];
  }

  /** The formatted number keeps exactly the first ten digits, all of them
      when there are fewer. */
  lemma FormatKeepsFirstTenDigits(phone: string)
    ensures var c := Digits(phone);
      Digits(FormatPhoneNumber(phone)) == c[..Min(|c|, 10)]
  {
    var c := Digits(phone);
    var m := Min(|c|, 10);
    FormatGroups(phone);
    if m <= 3 {
      DigitsOfDigits(c[..m]);
    } else if m <= 6 {
      TwoGroupsKeepDigits(c, m);
    } else {
      ThreeGroupsKeepDigits(c, m);
    }
  }

  /** The formatted number holds nothing but digits and hyphens. */
  lemma FormatUsesDigitsAndHyphens(phone: string)
    ensures var r := FormatPhoneNumber(phone);
      forall i :: 0 <= i < |r| ==> IsDecimalDigit(r[i]) || r[i] == '-'
  {
    FormatGroups(phone);
  }

  /** Hyphens sit after the third digit once there are more than three, and
      after the sixth once there are more than six; nowhere else. */
  lemma FormatHyphenLayout(phone: string)
    ensures var c, r := Digits(phone), FormatPhoneNumber(phone);
      var m := Min(|c|, 10);
      && |r| == m + (if m > 6 then 2 else if m > 3 then 1 else 0)
      && forall i :: 0 <= i < |r| ==> (r[i] == '-' <==> (i == 3 && m > 3) || (i == 7 && m > 6))
  {
    FormatGroups(phone);
  }

  /** Formatting an already formatted number changes nothing, so the input box
      may re-format its own value on every keystroke. */
  lemma FormatIdempotent(phone: string)
    ensures FormatPhoneNumber(FormatPhoneNumber(phone)) == FormatPhoneNumber(phone)
  {
    var c := Digits(phone);
    var r := FormatPhoneNumber(phone);
    FormatKeepsFirstTenDigits(phone);
    var d := Digits(r);
    assert d == c[..Min(|c|, 10)];
    FormatGroups(phone);
    FormatGroups(r);
    assert Min(|d|, 10) == Min(|c|, 10);
    var m := Min(|c|, 10);
    assert d[..m] == c[..m];
    if m > 6 {
      assert d[..3] == c[..3] && d[3..6] == c[3..6] && d[6..m] == c[6..m];
    } else if m > 3 {
      assert d[..3] == c[..3] && d[3..m] == c[3..m];
    }
  }

  /** A formatted number that passes the check holds 7 to 10 digits: numbers
      of 11 to 15 digits, which the check allows, cannot be entered. */
  lemma FormattedValidHasAtMostTenDigits(phone: string)
    ensures ValidatePhoneNumber(FormatPhoneNumber(phone)) <==> 7 <= |Digits(phone)|
    ensures ValidatePhoneNumber(FormatPhoneNumber(phone)) ==> 7 <= |Digits(FormatPhoneNumber(phone))| <= 10
  {
    FormatKeepsFirstTenDigits(phone);
  }

  // ---------------------------------------------------------------------------
  // E-mail addresses.

  predicate IsAsciiLetter(c: char) {
    ('a' <= c <= 'z') || ('A' <= c <= 'Z')
  }

  /** `[a-zA-Z0-9._%+-]` */
  predicate IsLocalChar(c: char) {
    IsAsciiLetter(c) || IsDecimalDigit(c) || c == '.' || c == '_' || c == '%' || c == '+' || c == '-'
  }

  /** `[a-zA-Z0-9.-]` */
  predicate IsDomainChar(c: char) {
    IsAsciiLetter(c) || IsDecimalDigit(c) || c == '.' || c == '-'
  }

  /** The language of `^[a-zA-Z0-9._%+-]+@[a-zA-Z0-9.-]+\.[a-zA-Z]{2,}$`,
      stated by where its `@` and its final `.` sit. */
  predicate EmailShapeAt(s: string, at: int, dot: int) {
    && 0 < at && at + 1 < dot && dot + 3 <= |s|
    && (forall i :: 0 <= i < at ==> IsLocalChar(s[i]))
    && s[at] == '@'
    && (forall i :: at < i < dot ==> IsDomainChar(s[i]))
    && s[dot] == '.'
    && (forall i :: dot < i < |s| ==> IsAsciiLetter(s[i]))
  }

  predicate EmailShape(s: string) {
    exists at, dot :: 0 <= at < dot < |s| && EmailShapeAt(s, at, dot)
  }

  /** The position of the first occurrence of `c`. */
  function FirstIndex(s: string, c: char): (r: Option<nat>)
    ensures r.Some? ==> r.value < |s| && s[r.value] == c && forall i :: 0 <= i < r.value ==> s[i] != c
    ensures r.None? ==> forall i :: 0 <= i < |s| ==> s[i] != c
  {
    if s == [] then None
    else if s[0] == c then Some(0)
    else match FirstIndex(s[1..], c)
      case None => None
      case Some(k) => Some(k + 1)
  }

  /** The position of the last occurrence of `c`. */
  function LastIndex(s: string, c: char): (r: Option<nat>)
    ensures r.Some? ==> r.value < |s| && s[r.value] == c && forall i :: r.value < i < |s| ==> s[i] != c
    ensures r.None? ==> forall i :: 0 <= i < |s| ==> s[i] != c
  {
    if s == [] then None
    else if s[|s| - 1] == c then Some(|s| - 1)
    else LastIndex(s[..|s| - 1], c)
  }

  /** `validateEmail`, decided by a scan: the first `@` and the last `.` are
      the only places the pattern can split. */
  predicate ValidateEmail(email: string) {
    match (FirstIndex(email, '@'), LastIndex(email, '.'))
    case (Some(at), Some(dot)) => EmailShapeAt(email, at, dot)
    case _ => false
  }

  /** The scan accepts exactly the strings of the pattern. */
  lemma ValidateEmailMatchesPattern(email: string)
    ensures ValidateEmail(email) <==> EmailShape(email)
  {
    if EmailShape(email) {
      var at, dot :| 0 <= at < dot < |email| && EmailShapeAt(email, at, dot);
      var a, d := FirstIndex(email, '@'), LastIndex(email, '.');
      assert a == Some(at) by {
        assert forall i :: 0 <= i < at ==> IsLocalChar(email[i]);
        assert a.Some? && a.value <= at;
      }
      assert d == Some(dot) by {
        assert forall i :: dot < i < |email| ==> IsAsciiLetter(email[i]);
        assert d.Some? && d.value >= dot;
      }
    }
  }

  /** An accepted address holds exactly one `@`. */
  lemma ValidEmailHasOneAt(email: string, at: int, dot: int)
    requires EmailShapeAt(email, at, dot)
    ensures forall i :: 0 <= i < |email| && email[i] == '@' ==> i == at
  {
    forall i | 0 <= i < |email| && i != at
      ensures email[i] != '@'
    {
      if i < at {
        assert IsLocalChar(email[i]);
      } else if i < dot {
        assert IsDomainChar(email[i]);
      } else if i > dot {
        assert IsAsciiLetter(email[i]);
      }
    }
  }
}

=== FILE: funnel_plans.dfy ===
/**
 * What the funnel's own answers allow the plan generator to produce: the
 * frequency question offers 2 to 5 days only, so the six-day push/pull/legs
 * rotation (picked for six or more days) is never generated from the quiz.
 */
module FunnelPlans {
  import opened JsRuntime
  import opened QuizAnswers
  import opened QuizFunnel
  import opened WorkoutTemplates
  import opened WorkoutPlan

  /** The frequency answers the quiz can store: none yet, or one of the
      offered options, a single digit from 2 to 5. */
  predicate OfferedFrequency(f: string) {
    f == [] || (|f| == 1 && '2' <= f[0] <= '5')
  }

  /** A single offered digit is read as that many days. */
  lemma SingleDigitDays(f: string)
    requires |f| == 1 && '2' <= f[0] <= '5'
    ensures DaysPerWeek(f) == (f[0] - '0') as int
  {
    var n: nat := (f[0] - '0') as nat;
    assert NatString(n) == f;
    NatStringParses(n, "");
    assert NatString(n) + "" == f;
  }

  lemma OfferedDays(f: string)
    requires OfferedFrequency(f)
    ensures 2 <= DaysPerWeek(f) <= 5
  {
    if f != [] {
      SingleDigitDays(f);
    }
  }

  lemma FrequencyOptionsOffered(i: int)
    requires 0 <= i < |OptionValues(3)|
    ensures OfferedFrequency(OptionValues(3)[i])
  {
  }

  /** No action stores a frequency the question does not offer. */
  lemma StepKeepsFrequencyOffered(s: Funnel, e: Event)
    requires OfferedFrequency(Get(s.answers, Frequency))
    ensures OfferedFrequency(Get(Step(s, e).answers, Frequency))
  {
    match e
    case Choose(i) =>
      if ShowsQuestion(s) && i < |OptionValues(s.quizStep)| {
        var f := FieldOrder[s.quizStep];
        if f == Frequency {
          assert s.quizStep == 3;
          FrequencyOptionsOffered(i);
        }
      }
    case _ =>
  }

  lemma {:induction false} RunKeepsFrequencyOffered(s: Funnel, events: seq<Event>)
    requires OfferedFrequency(Get(s.answers, Frequency))
    ensures OfferedFrequency(Get(Run(s, events).answers, Frequency))
    decreases |events|
  {
    if events != [] {
      StepKeepsFrequencyOffered(s, events[0]);
      RunKeepsFrequencyOffered(Step(s, events[0]), events[1..]);
    }
  }

  /** Two to five days never select the six-day rotation, and no rotation
      for them runs longer than five days. */
  lemma FewerThanSixDays(goal: string, experience: string, days: int)
    requires 2 <= days <= 5
    ensures SelectSplit(goal, experience, days) != PushPullLegs6
    ensures ExpectedLength(QualifiesForPushPullLegs(goal, experience, days), days) <= 5
  {
    SelectSplitTable(goal, experience, days);
  }

  /** Answers with an offered frequency plan 2 to 5 days, never the six-day
      rotation. */
  lemma OfferedFrequencyPlans(q: QuizData)
    requires OfferedFrequency(q.frequency)
    ensures 2 <= DaysPerWeek(q.frequency) <= 5
    ensures PlanSplit(q) != PushPullLegs6
    ensures |GenerateWorkoutPlan(q)| <= 5
  {
    var d := DaysPerWeek(q.frequency);
    OfferedDays(q.frequency);
    FewerThanSixDays(q.goal, q.experience, d);
    PlanLength(q);
  }

  /** Whatever the user does, the answers train 2 to 5 days a week, so the
      plan has at most five days and is never the six-day rotation. */
  lemma QuizNeverPlansSixDays(events: seq<Event>)
    ensures var q := Run(Initial, events).answers;
      && 2 <= DaysPerWeek(q.frequency) <= 5
      && PlanSplit(q) != PushPullLegs6
      && |GenerateWorkoutPlan(q)| <= 5
  {
    RunKeepsFrequencyOffered(Initial, events);
    OfferedFrequencyPlans(Run(Initial, events).answers);
  }
}

=== FILE: js_runtime.dfy ===
/**
 * The few pieces of ECMAScript behaviour the quiz logic leans on, stated over
 * unbounded integers: `Number.parseInt` with no radix argument, the `x || d`
 * fallback on a number, and `Math.round` applied to a value given in
 * hundredths.
 */
module JsRuntime {

  datatype Option<+T> = None | Some(value: T)

  /** StrWhiteSpaceChar of ECMA-262: WhiteSpace (TAB, VT, FF, ZWNBSP and every
      Unicode "Space_Separator" code point) or LineTerminator (LF, CR, LS, PS). */
  predicate IsJsWhiteSpace(c: char) {
    || c == '\U{0009}' || c == '\U{000B}' || c == '\U{000C}' || c == '\U{FEFF}'
    || c == '\U{0020}' || c == '\U{00A0}' || c == '\U{1680}'
    || ('\U{2000}' <= c <= '\U{200A}')
    || c == '\U{202F}' || c == '\U{205F}' || c == '\U{3000}'
    || c == '\U{000A}' || c == '\U{000D}' || c == '\U{2028}' || c == '\U{2029}'
  }

  predicate IsDecimalDigit(c: char) {
    '0' <= c <= '9'
  }

  predicate IsRadixDigit(c: char, radix: int) {
    if radix == 16 then IsDecimalDigit(c) || ('a' <= c <= 'f') || ('A' <= c <= 'F')
    else IsDecimalDigit(c)
  }

  function DigitValue(c: char): (v: nat)
    ensures IsRadixDigit(c, 16) ==> v < 16
    ensures IsDecimalDigit(c) ==> v < 10
  {
    if IsDecimalDigit(c) then (c - '0') as nat
    else if 'a' <= c <= 'f' then (c - 'a') as nat + 10
    else if 'A' <= c <= 'F' then (c - 'A') as nat + 10
    else 0
  }

  /** The input with its leading StrWhiteSpaceChar code points removed. */
  function TrimStart(s: string): (r: string)
    ensures |r| <= |s| && r == s[|s| - |r|..]
    ensures r == [] || !IsJsWhiteSpace(r[0])
    ensures forall i :: 0 <= i < |s| - |r| ==> IsJsWhiteSpace(s[i])
  {
    if s != [] && IsJsWhiteSpace(s[0]) then TrimStart(s[1..]) else s
  }

  /** The longest prefix of `s` made of radix digits. */
  function DigitPrefix(s: string, radix: int): (z: string)
    ensures |z| <= |s| && z == s[..|z|]
    ensures forall i :: 0 <= i < |z| ==> IsRadixDigit(z[i], radix)
    ensures |z| < |s| ==> !IsRadixDigit(s[|z|], radix)
  {
    if s != [] && IsRadixDigit(s[0], radix) then [s[0]] + DigitPrefix(s[1..], radix) else []
  }

  /** The number a digit string denotes in the given radix, most significant digit first. */
  function DigitsValue(z: string, radix: nat): nat
  {
    if z == [] then 0 else DigitsValue(z[..|z| - 1], radix) * radix + DigitValue(z[|z| - 1])
  }

  function StripSign(s: string): string {
    if s != [] && (s[0] == '+' || s[0] == '-') then s[1..] else s
  }

  predicate HasHexPrefix(s: string) {
    |s| >= 2 && s[0] == '0' && (s[1] == 'x' || s[1] == 'X')
  }

  /** The unsigned part of `parseInt`: a `0x`/`0X` prefix selects radix 16,
      otherwise radix 10; the longest run of radix digits is read, and an
      empty run is NaN (`None`). */
  function ParseUnsigned(u: string): Option<nat>
  {
    var radix := if HasHexPrefix(u) then 16 else 10;
    var z := DigitPrefix(if radix == 16 then u[2..] else u, radix);
    if z == [] then None else Some(DigitsValue(z, radix))
  }

  /** `Number.parseInt(s)` (section 19.2.5 of ECMA-262 with the radix argument
      absent); `None` stands for NaN. Values are exact: the rounding of very long
      digit strings to a double is not modelled. */
  function ParseInt(s: string): Option<int>
  {
    var t := TrimStart(s);
    var sign := if t != [] && t[0] == '-' then -1 else 1;
    match ParseUnsigned(StripSign(t))
    case None => None
    case Some(v) => Some(sign * v)
  }

  /** `n || fallback` for a number `n`: NaN and zero are falsy. */
  function OrElse(n: Option<int>, fallback: int): (r: int)
    ensures r == fallback || (n.Some? && r == n.value)
    ensures r == fallback <== (n == None || n == Some(0))
    ensures n.Some? && n.value != 0 ==> r == n.value
  {
    if n.None? || n.value == 0 then fallback else n.value
  }

  /** `Math.round(n / 100)`: the nearest integer, halves rounded up. */
  function RoundHundredths(n: int): (r: int)
    ensures 100 * r - 50 <= n < 100 * r + 50
  {
    (n + 50) / 100
  }

  lemma RoundHundredthsMonotonic(m: int, n: int)
    requires m <= n
    ensures RoundHundredths(m) <= RoundHundredths(n)
  {
    var a, b := RoundHundredths(m), RoundHundredths(n);
    assert 100 * a - 50 <= m <= n < 100 * b + 50;
  }

  // ---------------------------------------------------------------------------
  // Decimal rendering, used to state what ParseInt recovers.

  function DecimalDigit(d: nat): (c: char)
    requires d < 10
    ensures IsDecimalDigit(c) && DigitValue(c) == d
  {
    ['0', '1', '2', '3', '4', '5', '6', '7', '8', '9'][d]
  }

  /** The canonical decimal spelling of a natural number. */
  function NatString(n: nat): (s: string)
    ensures s != []
    ensures forall i :: 0 <= i < |s| ==> IsDecimalDigit(s[i])
    ensures n > 0 ==> s[0] != '0'
  {
    if n < 10 then [DecimalDigit(n)] else NatString(n / 10) + [DecimalDigit(n % 10)]
  }

  /** The decimal spelling of an integer, as `String(n)` writes it. */
  function DecimalString(n: int): string {
    if n < 0 then "-" + NatString(-n) else NatString(n)
  }

  lemma {:induction false} NatStringValue(n: nat)
    ensures DigitsValue(NatString(n), 10) == n
  {
    if n >= 10 {
      var s := NatString(n);
      assert s[..|s| - 1] == NatString(n / 10);
      NatStringValue(n / 10);
    }
  }

  lemma {:induction false} DigitPrefixOfDigits(a: string, t: string, radix: int)
    requires forall i :: 0 <= i < |a| ==> IsRadixDigit(a[i], radix)
    requires t == [] || !IsRadixDigit(t[0], radix)
    ensures DigitPrefix(a + t, radix) == a
  {
    if a != [] {
      assert (a + t)[1..] == a[1..] + t;
      DigitPrefixOfDigits(a[1..], t, radix);
    } else {
      assert a + t == t;
    }
  }

  /** The text that may follow a number's decimal spelling without changing
      what `parseInt` reads: no further decimal digit, and after a bare `0` no
      `x`/`X` (which would switch to hexadecimal). */
  predicate EndsNumber(n: int, t: string) {
    t == [] || (!IsDecimalDigit(t[0]) && !(n == 0 && (t[0] == 'x' || t[0] == 'X')))
  }

  lemma NatStringParsesUnsigned(m: nat, t: string)
    requires EndsNumber(m, t)
    ensures ParseUnsigned(NatString(m) + t) == Some(m)
  {
    var digits := NatString(m);
    var u := digits + t;
    assert !HasHexPrefix(u) by {
      if m > 0 {
        assert u[0] == digits[0];
      } else if |u| >= 2 {
        assert digits == "0";
        assert u[1] == t[0];
      }
    }
    assert forall i :: 0 <= i < |digits| ==> IsRadixDigit(digits[i], 10);
    DigitPrefixOfDigits(digits, t, 10);
    NatStringValue(m);
  }

  lemma NumberStartIsNotWhiteSpace(c: char)
    requires IsDecimalDigit(c) || c == '-'
    ensures !IsJsWhiteSpace(c)
  {
  }

  lemma TrimStartKeepsText(s: string)
    requires s == [] || !IsJsWhiteSpace(s[0])
    ensures TrimStart(s) == s
  {
  }

  lemma NatStringParses(m: nat, t: string)
    requires EndsNumber(m, t)
    ensures ParseInt(NatString(m) + t) == Some(m)
  {
    var s := NatString(m) + t;
    assert s[0] == NatString(m)[0];
    NumberStartIsNotWhiteSpace(s[0]);
    TrimStartKeepsText(s);
    assert StripSign(s) == s;
    NatStringParsesUnsigned(m, t);
  }

  lemma NegatedNatStringParses(m: nat, t: string)
    requires m > 0 && EndsNumber(m, t)
    ensures ParseInt("-" + NatString(m) + t) == Some(-(m as int))
  {
    var u := NatString(m) + t;
    var s := "-" + NatString(m) + t;
    assert s == ['-'] + u;
    assert s[0] == '-' && s[1..] == u;
    NumberStartIsNotWhiteSpace(s[0]);
    TrimStartKeepsText(s);
    assert StripSign(s) == u;
    NatStringParsesUnsigned(m, t);
    assert ParseUnsigned(StripSign(TrimStart(s))) == Some(m);
  }

  /** `parseInt` reads back every integer from its decimal spelling, whatever
      non-digit text follows it. */
  lemma DecimalStringParses(n: int, t: string)
    requires EndsNumber(n, t)
    ensures ParseInt(DecimalString(n) + t) == Some(n)
  {
    if n < 0 {
      var m: nat := -n;
      assert DecimalString(n) == "-" + NatString(m);
      NegatedNatStringParses(m, t);
    } else {
      assert DecimalString(n) == NatString(n);
      NatStringParses(n, t);
    }
  }

  /** Leading white space never changes what `parseInt` reads. */
  lemma ParseIntSkipsWhiteSpace(c: char, s: string)
    requires IsJsWhiteSpace(c)
    ensures ParseInt([c] + s) == ParseInt(s)
  {
    assert ([c] + s)[1..] == s;
  }

  /** Text without any leading digit (after white space and sign) is NaN. */
  lemma ParseIntNoDigits(s: string)
    requires var u := StripSign(TrimStart(s)); u == [] || (!IsDecimalDigit(u[0]))
    ensures ParseInt(s) == None
  {
  }
}

=== FILE: meal_plan.dfy ===
/**
 * The meal-plan generator: a calorie target computed from weight, age and
 * goal, split into four fixed meal slots, each with a food list looked up by
 * meal, diet and age; and the grocery list looked up by diet and age.
 */
module MealPlanner {
  import opened JsRuntime
  import opened QuizAnswers

  // ---------------------------------------------------------------------------
  // Calories.

  /** `Number.parseInt(weight) || 150`, then 150 below 80 and 200 above 400. */
  function EffectiveWeight(weight: string): (w: int)
    ensures 80 <= w <= 400
    ensures w == 150 || w == 200 || ParseInt(weight) == Some(w)
  {
    var n := OrElse(ParseInt(weight), 150);
    var low := if n < 80 then 150 else n;
    if low > 400 then 200 else low
  }

  /** The age multiplier in hundredths: 1.15, 1.05, 1.0 or 0.95, and 1 for an
      unrecognised answer. */
  function AgeMultiplier(age: string): (m: int)
    ensures 95 <= m <= 115
  {
    if age == "under-18" || age == "18-24" then 115
    else if age == "25-35" then 105
    else if age == "36-50" then 100
    else if age == "50+" then 95
    else 100
  }

  /** Calories per pound and the fixed allowance of the goal's formula. */
  datatype Formula = Formula(perPound: int, allowance: int)

  function GoalFormula(goal: string): Formula {
    if goal == "lose-fat" then Formula(12, 200)
    else if goal == "build-muscle" then Formula(16, 300)
    else Formula(14, 250)
  }

  /** `Math.round((weight * perPound + allowance) * multiplier)` before the
      clamp, with the multiplier exact in hundredths. */
  function RawCalories(goal: string, weight: int, age: string): (c: int)
    ensures var f := GoalFormula(goal);
      100 * c - 50 <= (weight * f.perPound + f.allowance) * AgeMultiplier(age) < 100 * c + 50
  {
    var f := GoalFormula(goal);
    RoundHundredths((weight * f.perPound + f.allowance) * AgeMultiplier(age))
  }

  /** The two guards on the target: below 1200 becomes 1200, above 3500 becomes 3500. */
  function ClampCalories(raw: int): (c: int)
    ensures 1200 <= c <= 3500
    ensures 1200 <= raw <= 3500 ==> c == raw
  {
    var low := if raw < 1200 then 1200 else raw;
    if low > 3500 then 3500 else low
  }

  /** The daily target: the rounded formula, clamped. */
  function BaseCalories(goal: string, weight: int, age: string): (c: int)
    ensures 1200 <= c <= 3500
  {
    ClampCalories(RawCalories(goal, weight, age))
  }

  // ---------------------------------------------------------------------------
  // Meals.

  datatype MealType = Breakfast | Lunch | Dinner | Snack {
    /** The label shown for the meal. */
    function Title(): string {
      match this
      case Breakfast => "Breakfast"
      case Lunch => "Lunch"
      case Dinner => "Dinner"
      case Snack => "Snack"
    }

    /** The key the food lookup is called with. */
    function Key(): string {
      match this
      case Breakfast => "breakfast"
      case Lunch => "lunch"
      case Dinner => "dinner"
      case Snack => "snack"
    }

    /** The meal's share of the day in hundredths. */
    function Share(): nat {
      match this
      case Breakfast => 25
      case Lunch => 35
      case Dinner => 30
      case Snack => 10
    }
  }

  /** The order the plan lists its meals in. */
  const MealOrder: seq<MealType> := [Breakfast, Lunch, Dinner, Snack]

  /** A meal slot; `foods` names the food list the slot shows (see `MealFoods`). */
  datatype Meal = Meal(meal: string, calories: int, foods: FoodKey)

  /** The three inputs of the food lookup, once classified. */
  datatype FoodKey = FoodKey(meal: MealType, diet: DietKind, age: AgeGroup)

  datatype MealPlan = MealPlan(meals: seq<Meal>, totalCalories: int)

  /** `Math.round(base * share)`: the nearest whole number of calories. */
  function SlotCalories(base: int, t: MealType): (c: int)
    ensures 100 * c - 50 <= base * t.Share() < 100 * c + 50
  {
    RoundHundredths(base * t.Share())
  }

  /** `meals.reduce((sum, meal) => sum + meal.calories, 0)`. */
  function SumCalories(meals: seq<Meal>): int {
    if meals == [] then 0 else SumCalories(meals[..|meals| - 1]) + meals[|meals| - 1].calories
  }

  /** The lookup key `getAgeTailoredFoods(t.Key(), diet, age)` is answered
      from (see `MealShowsLookup`). */
  function FoodKeyFor(t: MealType, diet: string, age: string): FoodKey {
    FoodKey(t, DietKindOf(diet), AgeGroupOf(age))
  }

  function MealFor(t: MealType, base: int, diet: string, age: string): Meal {
    Meal(t.Title(), SlotCalories(base, t), FoodKeyFor(t, diet, age))
  }

  /** The food list a meal slot shows. */
  function MealFoods(m: Meal): seq<string> {
    Foods(m.foods.meal, m.foods.diet, m.foods.age)
  }

  /** `generateMealPlan`. */
  function GenerateMealPlan(q: QuizData): MealPlan {
    var base := PlanBase(q);
    var meals := [
      MealFor(Breakfast, base, q.diet, q.age),
      MealFor(Lunch, base, q.diet, q.age),
      MealFor(Dinner, base, q.diet, q.age),
      MealFor(Snack, base, q.diet, q.age)
    ];
    MealPlan(meals, SumCalories(meals))
  }

  function PlanBase(q: QuizData): int {
    BaseCalories(q.goal, EffectiveWeight(q.weight), q.age)
  }

  // ---------------------------------------------------------------------------
  // Food lookup.

  datatype DietKind = Vegan | Keto | Standard

  /** Which of the three age lists applies. Middle-aged answers and
      unrecognised ones share the baseline list. */
  datatype AgeGroup = Younger | Older | Baseline

  function DietKindOf(diet: string): DietKind {
    if diet == "vegan" then Vegan else if diet == "keto" then Keto else Standard
  }

  function AgeGroupOf(ageRange: string): AgeGroup {
    if ageRange == "under-18" || ageRange == "18-24" then Younger
    else if ageRange == "50+" then Older
    else Baseline
  }

  /** The meal a lookup key names; every key but the first three is a snack. */
  function MealTypeOf(mealType: string): MealType {
    if mealType == "breakfast" then Breakfast
    else if mealType == "lunch" then Lunch
    else if mealType == "dinner" then Dinner
    else Snack
  }

  function BreakfastFoods(d: DietKind, g: AgeGroup): seq<string> {
    match d
    case Vegan =>
      if g.Younger? then ["Oatmeal with berries", "Almond butter", "Plant protein powder", "Banana"]
      else if g.Older? then ["Steel-cut oats", "Walnuts", "Plant milk", "Blueberries", "Chia seeds"]
      else ["Oatmeal with berries", "Almond butter", "Plant milk"]
    case Keto =>
      if g.Younger? then ["Eggs with avocado", "Bacon", "Spinach", "Cheese"]
      else if g.Older? then ["Eggs with avocado", "Smoked salmon", "Spinach", "Olive oil"]
      else ["Eggs with avocado", "Bacon", "Spinach"]
    case Standard =>
      if g.Younger? then ["Greek yogurt", "Berries", "Granola", "Protein powder"]
      else if g.Older? then ["Greek yogurt", "Berries", "Nuts", "Fiber cereal"]
      else ["Greek yogurt", "Berries", "Granola"]
  }

  function LunchFoods(d: DietKind, g: AgeGroup): seq<string> {
    match d
    case Vegan =>
      if g.Younger? then ["Quinoa bowl", "Chickpeas", "Vegetables", "Tahini dressing"]
      else if g.Older? then ["Lentil soup", "Mixed greens", "Quinoa", "Olive oil"]
      else ["Quinoa bowl", "Chickpeas", "Vegetables"]
    case Keto =>
      if g.Younger? then ["Chicken salad", "Avocado", "Olive oil", "Nuts"]
      else if g.Older? then ["Salmon salad", "Avocado", "Olive oil", "Leafy greens"]
      else ["Chicken salad", "Avocado", "Olive oil"]
    case Standard =>
      if g.Younger? then ["Grilled chicken", "Sweet potato", "Broccoli", "Brown rice"]
      else if g.Older? then ["Lean fish", "Quinoa", "Steamed vegetables", "Olive oil"]
      else ["Grilled chicken", "Sweet potato", "Broccoli"]
  }

  function DinnerFoods(d: DietKind, g: AgeGroup): seq<string> {
    match d
    case Vegan =>
      if g.Younger? then ["Lentil curry", "Brown rice", "Vegetables", "Coconut milk"]
      else if g.Older? then ["Tofu stir-fry", "Quinoa", "Mixed vegetables", "Ginger"]
      else ["Lentil curry", "Brown rice", "Vegetables"]
    case Keto =>
      if g.Younger? then ["Salmon", "Asparagus", "Butter", "Cauliflower rice"]
      else if g.Older? then ["Cod", "Zucchini", "Olive oil", "Herbs"]
      else ["Salmon", "Asparagus", "Butter"]
    case Standard =>
      if g.Younger? then ["Lean protein", "Quinoa", "Green vegetables", "Sweet potato"]
      else if g.Older? then ["Fish", "Brown rice", "Steamed vegetables", "Herbs"]
      else ["Lean protein", "Quinoa", "Green vegetables"]
  }

  function SnackFoods(d: DietKind, g: AgeGroup): seq<string> {
    match d
    case Vegan =>
      if g.Younger? then ["Apple with almond butter", "Protein smoothie"]
      else if g.Older? then ["Nuts and seeds", "Herbal tea"]
      else ["Apple with almond butter"]
    case Keto =>
      if g.Younger? then ["Nuts and cheese", "Hard-boiled egg"]
      else if g.Older? then ["Avocado", "Herbal tea"]
      else ["Nuts and cheese"]
    case Standard =>
      if g.Younger? then ["Greek yogurt with fruit", "Protein bar"]
      else if g.Older? then ["Greek yogurt", "Berries"]
      else ["Greek yogurt with fruit"]
  }

  function Foods(t: MealType, d: DietKind, g: AgeGroup): seq<string> {
    match t
    case Breakfast => BreakfastFoods(d, g)
    case Lunch => LunchFoods(d, g)
    case Dinner => DinnerFoods(d, g)
    case Snack => SnackFoods(d, g)
  }

  /** `getAgeTailoredFoods(mealType, diet, ageRange)`. */
  function GetAgeTailoredFoods(mealType: string, diet: string, ageRange: string): seq<string> {
    Foods(MealTypeOf(mealType), DietKindOf(diet), AgeGroupOf(ageRange))
  }

  // ---------------------------------------------------------------------------
  // Grocery list.

  function GroceryBase(d: DietKind): (r: seq<string>)
    ensures |r| == if d.Standard? then 10 else 11
  {
    match d
    case Vegan =>
      ["Oats", "Berries", "Almond butter", "Plant milk", "Quinoa", "Chickpeas",
       "Mixed vegetables", "Lentils", "Brown rice", "Apples", "Nuts"]
    case Keto =>
      ["Eggs", "Avocados", "Bacon", "Spinach", "Chicken breast", "Olive oil",
       "Salmon", "Asparagus", "Butter", "Cheese", "Nuts"]
    case Standard =>
      ["Greek yogurt", "Berries", "Granola", "Chicken breast", "Sweet potatoes",
       "Broccoli", "Quinoa", "Green vegetables", "Lean fish", "Fruits"]
  }

  /** What a 50+ user gets on top of the base list. */
  function GroceryExtras(d: DietKind): (r: seq<string>)
    ensures |r| == 5
  {
    match d
    case Vegan => ["Chia seeds", "Walnuts", "Ginger", "Turmeric", "Leafy greens"]
    case Keto => ["Smoked salmon", "Cod", "Zucchini", "Herbs", "Cauliflower"]
    case Standard => ["Brown rice", "Herbs", "Olive oil", "Fiber cereal", "Nuts"]
  }

  /** `generateGroceryList`: only the diet and whether the age is exactly "50+" matter. */
  function GenerateGroceryList(q: QuizData): seq<string> {
    var d := DietKindOf(q.diet);
    if q.age == "50+" then GroceryBase(d) + GroceryExtras(d) else GroceryBase(d)
  }

  // ---------------------------------------------------------------------------
  // Properties.

  /** A weight answer that spells a whole number is used as given when it lies
      in [80, 400]; a number above 400 becomes 200, and one below 80 (zero
      included) becomes 150. */
  lemma EffectiveWeightReadsNumber(n: int, rest: string)
    requires EndsNumber(n, rest)
    ensures EffectiveWeight(DecimalString(n) + rest) ==
      if 80 <= n <= 400 then n else if n > 400 then 200 else 150
  {
    DecimalStringParses(n, rest);
  }

  /** A weight answer with no number in it counts as 150 pounds. */
  lemma EffectiveWeightUnreadable(weight: string)
    requires ParseInt(weight) == None
    ensures EffectiveWeight(weight) == 150
  {
  }

  lemma ClampMonotonic(x: int, y: int)
    requires x <= y
    ensures ClampCalories(x) <= ClampCalories(y)
  {
  }

  lemma ScaleMonotonic(x: int, y: int, m: int)
    requires x <= y && m >= 0
    ensures x * m <= y * m
  {
    assert (y - x) * m >= 0;
  }

  /** More weight never means fewer calories, whatever the goal and age. */
  lemma BaseCaloriesMonotonic(goal: string, age: string, w1: int, w2: int)
    requires w1 <= w2
    ensures BaseCalories(goal, w1, age) <= BaseCalories(goal, w2, age)
  {
    var f, m := GoalFormula(goal), AgeMultiplier(age);
    ScaleMonotonic(w1, w2, f.perPound);
    var x1, x2 := w1 * f.perPound + f.allowance, w2 * f.perPound + f.allowance;
    ScaleMonotonic(x1, x2, m);
    RoundHundredthsMonotonic(x1 * m, x2 * m);
    ClampMonotonic(RawCalories(goal, w1, age), RawCalories(goal, w2, age));
  }

  /** Before the clamp, the goals' formulas are ordered for every weight of at
      least 0: losing fat lowest, building muscle highest. */
  lemma RawCaloriesGoalOrder(goal: string, age: string, w: int)
    requires w >= 0
    ensures RawCalories("lose-fat", w, age) <= RawCalories(goal, w, age) <= RawCalories("build-muscle", w, age)
  {
    var m, f := AgeMultiplier(age), GoalFormula(goal);
    var a, b, c := w * 12 + 200, w * f.perPound + f.allowance, w * 16 + 300;
    assert a <= b <= c by {
      assert f == Formula(12, 200) || f == Formula(14, 250) || f == Formula(16, 300);
    }
    ScaleMonotonic(a, b, m);
    ScaleMonotonic(b, c, m);
    RoundHundredthsMonotonic(a * m, b * m);
    RoundHundredthsMonotonic(b * m, c * m);
  }

  /** For any plausible weight, building muscle asks for the most calories,
      losing fat for the fewest, and every other goal lies between. */
  lemma GoalOrdersCalories(goal: string, age: string, w: int)
    requires w >= 0
    ensures BaseCalories("lose-fat", w, age) <= BaseCalories(goal, w, age) <= BaseCalories("build-muscle", w, age)
  {
    var lo, mid, hi := RawCalories("lose-fat", w, age), RawCalories(goal, w, age), RawCalories("build-muscle", w, age);
    RawCaloriesGoalOrder(goal, age, w);
    ClampMonotonic(lo, mid);
    ClampMonotonic(mid, hi);
  }

  /** The four slots, rounded one by one, add up to the target give or take two. */
  lemma SlotsAddUpToBase(base: int)
    ensures var total := SlotCalories(base, Breakfast) + SlotCalories(base, Lunch)
                       + SlotCalories(base, Dinner) + SlotCalories(base, Snack);
      base - 1 <= total <= base + 2
  {
  }

  /** `reduce` over four meals adds their calories. */
  lemma SumOfFour(a: Meal, b: Meal, c: Meal, d: Meal)
    ensures SumCalories([a, b, c, d]) == a.calories + b.calories + c.calories + d.calories
  {
    assert SumCalories([a]) == a.calories by {
      assert [a][..0] == [];
    }
    assert SumCalories([a, b]) == a.calories + b.calories by {
      assert [a, b][..1] == [a];
    }
    assert SumCalories([a, b, c]) == a.calories + b.calories + c.calories by {
      assert [a, b, c][..2] == [a, b];
    }
    assert [a, b, c, d][..3] == [a, b, c];
  }

  /** The plan lists breakfast, lunch, dinner and snack in that order, each
      with its share of the target and the food list its key selects, and the
      total is the sum of the four slots. */
  lemma MealPlanShape(q: QuizData)
    ensures var plan, base := GenerateMealPlan(q), PlanBase(q);
      && |plan.meals| == 4
      && (forall i :: 0 <= i < 4 ==> plan.meals[i] == MealFor(MealOrder[i], base, q.diet, q.age))
      && plan.totalCalories == plan.meals[0].calories + plan.meals[1].calories
                             + plan.meals[2].calories + plan.meals[3].calories
  {
    var base := PlanBase(q);
    var a, b := MealFor(Breakfast, base, q.diet, q.age), MealFor(Lunch, base, q.diet, q.age);
    var c, d := MealFor(Dinner, base, q.diet, q.age), MealFor(Snack, base, q.diet, q.age);
    assert GenerateMealPlan(q) == MealPlan([a, b, c, d], SumCalories([a, b, c, d]));
    SumOfFour(a, b, c, d);
  }

  /** Every meal's lookup key is read back as that meal. */
  lemma KeyNamesMeal(t: MealType)
    ensures MealTypeOf(t.Key()) == t
  {
  }

  /** Each slot shows exactly the list `getAgeTailoredFoods` returns for the
      slot's key, diet and age. */
  lemma MealShowsLookup(t: MealType, base: int, diet: string, age: string)
    ensures MealFoods(MealFor(t, base, diet, age)) == GetAgeTailoredFoods(t.Key(), diet, age)
  {
    KeyNamesMeal(t);
  }

  /** The total lies within two calories of the clamped target, and so within
      [1199, 3502]. */
  lemma TotalNearBase(q: QuizData)
    ensures var plan, base := GenerateMealPlan(q), PlanBase(q);
      && 1200 <= base <= 3500
      && base - 1 <= plan.totalCalories <= base + 2
  {
    MealPlanShape(q);
    SlotsAddUpToBase(PlanBase(q));
  }

  /** The target for losing fat at 150 pounds, aged 25-35: 1.05 * 2000. */
  lemma LoseFatScenarioTarget()
    ensures BaseCalories("lose-fat", 150, "25-35") == 2100
  {
  }

  lemma LoseFatScenarioBase(q: QuizData)
    requires q.goal == "lose-fat" && ParseInt(q.weight) == Some(150) && q.age == "25-35"
    ensures PlanBase(q) == 2100
  {
    assert EffectiveWeight(q.weight) == 150;
    LoseFatScenarioTarget();
  }

  /** Scenario: losing fat with a weight answer that reads as 150 (such as
      "150", see `NatStringParses`), aged 25-35, gives 525, 735, 630 and
      210 calories, 2100 in all. */
  lemma LoseFatScenario(q: QuizData)
    requires q.goal == "lose-fat" && ParseInt(q.weight) == Some(150) && q.age == "25-35"
    ensures var plan := GenerateMealPlan(q);
      && |plan.meals| == 4
      && plan.meals[0].calories == 525 && plan.meals[1].calories == 735
      && plan.meals[2].calories == 630 && plan.meals[3].calories == 210
      && plan.totalCalories == 2100
  {
    LoseFatScenarioBase(q);
    MealPlanShape(q);
    assert SlotCalories(2100, Breakfast) == 525 && SlotCalories(2100, Lunch) == 735;
    assert SlotCalories(2100, Dinner) == 630 && SlotCalories(2100, Snack) == 210;
  }

  /** Any diet but "vegan" and "keto" reads the default table. */
  lemma OtherDietsShareTable(mealType: string, diet: string, ageRange: string)
    requires diet != "vegan" && diet != "keto"
    ensures GetAgeTailoredFoods(mealType, diet, ageRange) == GetAgeTailoredFoods(mealType, "none", ageRange)
  {
    assert DietKindOf(diet) == DietKindOf("none");
  }

  /** Any meal key but "breakfast", "lunch" and "dinner" is served the snack list. */
  lemma OtherKeysAreSnacks(mealType: string, diet: string, ageRange: string)
    requires mealType != "breakfast" && mealType != "lunch" && mealType != "dinner"
    ensures GetAgeTailoredFoods(mealType, diet, ageRange) == GetAgeTailoredFoods("snack", diet, ageRange)
  {
    assert MealTypeOf(mealType) == MealTypeOf("snack");
  }

  /** Middle-aged and unrecognised age answers get the same (baseline) list. */
  lemma OtherAgesShareBaseline(mealType: string, diet: string, ageRange: string)
    requires ageRange != "under-18" && ageRange != "18-24" && ageRange != "50+"
    ensures GetAgeTailoredFoods(mealType, diet, ageRange) == GetAgeTailoredFoods(mealType, diet, "36-50")
  {
    assert AgeGroupOf(ageRange) == AgeGroupOf("36-50");
  }

  /** Scenario: a keto dinner for a 50+ user. */
  lemma KetoOlderDinner()
    ensures GetAgeTailoredFoods("dinner", "keto", "50+") == ["Cod", "Zucchini", "Olive oil", "Herbs"]
  {
  }

  /** The baseline lists hold three foods for a meal and one for a snack;
      the younger list always holds one food more, the older list at least
      one more. */
  lemma TailoredListsAreLonger(t: MealType, d: DietKind)
    ensures |Foods(t, d, Baseline)| == if t.Snack? then 1 else 3
    ensures |Foods(t, d, Younger)| == |Foods(t, d, Baseline)| + 1
    ensures |Foods(t, d, Older)| > |Foods(t, d, Baseline)|
  {
    match t
    case Breakfast => BreakfastListSizes(d);
    case Lunch => LunchListSizes(d);
    case Dinner => DinnerListSizes(d);
    case Snack => SnackListSizes(d);
  }

  /** `a` starts with all of `b`. */
  predicate StartsWith(a: seq<string>, b: seq<string>) {
    |b| <= |a| && a[..|b|] == b
  }

  /** Every younger list is its baseline list with one food appended, except
      the vegan breakfast, which keeps the first two baseline foods and puts
      "Plant protein powder" and "Banana" in place of "Plant milk". */
  lemma YoungerListsExtendBaseline(t: MealType, d: DietKind)
    ensures !(t.Breakfast? && d.Vegan?) ==> StartsWith(Foods(t, d, Younger), Foods(t, d, Baseline))
    ensures t.Breakfast? && d.Vegan? ==>
      && Foods(t, d, Younger)[..2] == Foods(t, d, Baseline)[..2]
      && Foods(t, d, Baseline)[2] !in Foods(t, d, Younger)
  {
    match t
    case Breakfast => YoungerBreakfast(d);
    case Lunch => YoungerLunch(d);
    case Dinner => YoungerDinner(d);
    case Snack => YoungerSnack(d);
  }

  lemma YoungerBreakfast(d: DietKind)
    ensures !d.Vegan? ==> StartsWith(BreakfastFoods(d, Younger), BreakfastFoods(d, Baseline))
    ensures d.Vegan? ==>
      && BreakfastFoods(d, Younger)[..2] == BreakfastFoods(d, Baseline)[..2]
      && BreakfastFoods(d, Baseline)[2] !in BreakfastFoods(d, Younger)
  {
  }

  lemma YoungerLunch(d: DietKind)
    ensures StartsWith(LunchFoods(d, Younger), LunchFoods(d, Baseline))
  {
  }

  lemma YoungerDinner(d: DietKind)
    ensures StartsWith(DinnerFoods(d, Younger), DinnerFoods(d, Baseline))
  {
  }

  lemma YoungerSnack(d: DietKind)
    ensures StartsWith(SnackFoods(d, Younger), SnackFoods(d, Baseline))
  {
  }

  lemma BreakfastListSizes(d: DietKind)
    ensures |BreakfastFoods(d, Baseline)| == 3 && |BreakfastFoods(d, Younger)| == 4
    ensures |BreakfastFoods(d, Older)| == if d.Vegan? then 5 else 4
  {
  }

  lemma LunchListSizes(d: DietKind)
    ensures |LunchFoods(d, Baseline)| == 3 && |LunchFoods(d, Younger)| == 4 && |LunchFoods(d, Older)| == 4
  {
  }

  lemma DinnerListSizes(d: DietKind)
    ensures |DinnerFoods(d, Baseline)| == 3 && |DinnerFoods(d, Younger)| == 4 && |DinnerFoods(d, Older)| == 4
  {
  }

  lemma SnackListSizes(d: DietKind)
    ensures |SnackFoods(d, Baseline)| == 1 && |SnackFoods(d, Younger)| == 2 && |SnackFoods(d, Older)| == 2
  {
  }

  predicate NoRepeats(items: seq<string>) {
    forall i, j :: 0 <= i < j < |items| ==> items[i] != items[j]
  }

  lemma BreakfastListsHaveNoRepeats(d: DietKind, g: AgeGroup)
    ensures NoRepeats(BreakfastFoods(d, g))
  {
  }

  lemma LunchListsHaveNoRepeats(d: DietKind, g: AgeGroup)
    ensures NoRepeats(LunchFoods(d, g))
  {
  }

  lemma DinnerListsHaveNoRepeats(d: DietKind, g: AgeGroup)
    ensures NoRepeats(DinnerFoods(d, g))
  {
  }

  lemma SnackListsHaveNoRepeats(d: DietKind, g: AgeGroup)
    ensures NoRepeats(SnackFoods(d, g))
  {
  }

  /** No food appears twice in any list. */
  lemma FoodListsHaveNoRepeats(t: MealType, d: DietKind, g: AgeGroup)
    ensures NoRepeats(Foods(t, d, g))
  {
    match t
    case Breakfast => BreakfastListsHaveNoRepeats(d, g);
    case Lunch => LunchListsHaveNoRepeats(d, g);
    case Dinner => DinnerListsHaveNoRepeats(d, g);
    case Snack => SnackListsHaveNoRepeats(d, g);
  }

  /** The full list of a diet, extras included, repeats no item. */
  lemma GroceriesHaveNoRepeats(d: DietKind)
    ensures NoRepeats(GroceryBase(d) + GroceryExtras(d))
  {
    match d
    case Vegan => VeganGroceriesHaveNoRepeats();
    case Keto => KetoGroceriesHaveNoRepeats();
    case Standard => StandardGroceriesHaveNoRepeats();
  }

  lemma VeganGroceriesHaveNoRepeats()
    ensures NoRepeats(GroceryBase(Vegan) + GroceryExtras(Vegan))
  {
  }

  lemma KetoGroceriesHaveNoRepeats()
    ensures NoRepeats(GroceryBase(Keto) + GroceryExtras(Keto))
  {
  }

  lemma StandardGroceriesHaveNoRepeats()
    ensures NoRepeats(GroceryBase(Standard) + GroceryExtras(Standard))
  {
  }

  /** No item appears twice on any grocery list. */
  lemma GroceryListHasNoRepeats(q: QuizData)
    ensures NoRepeats(GenerateGroceryList(q))
  {
    var d := DietKindOf(q.diet);
    var full := GroceryBase(d) + GroceryExtras(d);
    GroceriesHaveNoRepeats(d);
    assert GroceryBase(d) == full[..|GroceryBase(d)|];
  }

  /** The grocery list has 11 items for vegan and keto diets and 10 for any
      other, plus 5 when the age is "50+"; the base list always comes first. */
  lemma GroceryListShape(q: QuizData)
    ensures var list, d := GenerateGroceryList(q), DietKindOf(q.diet);
      && |list| == (if q.diet == "vegan" || q.diet == "keto" then 11 else 10) + (if q.age == "50+" then 5 else 0)
      && list[..|GroceryBase(d)|] == GroceryBase(d)
  {
  }
}

=== FILE: mental_quiz.dfy ===
/**
 * The motivation quiz page: three persona questions, the result page with its
 * contact form, and the success page. The persona names, descriptions, icons
 * and the country list are display data; only the persona keys matter here.
 */
module MentalQuiz {
  import opened JsRuntime
  import opened Contact
  import opened PersonaVote

  /** The five option values, the same on every question. */
  datatype Persona = Warrior | Strategist | Champion | Philosopher | Competitor
  {
    function Key(): string {
      match this
      case Warrior => "warrior"
      case Strategist => "strategist"
      case Champion => "champion"
      case Philosopher => "philosopher"
      case Competitor => "competitor"
    }
  }

  /** The options of each question, in display order. */
  const Options: seq<Persona> := [Warrior, Strategist, Champion, Philosopher, Competitor]

  const QuestionCount: int := 3

  /** `quizQuestions[q].id` */
  function QuestionId(q: int): int {
    q + 1
  }

  /** `currentStep`: "quiz", "result" or "success". */
  datatype Page = QuizPage | ResultPage | SuccessPage

  datatype ContactType = EmailContact | PhoneContact

  /** The page state. `sent` is the `fullContact` handed to the (left out)
      delivery, once the form is accepted. */
  datatype MentalQuiz = MentalQuiz(
    page: Page,
    answers: map<int, Persona>,
    result: Option<Persona>,
    question: int,
    contactInfo: string,
    contactType: ContactType,
    countryCode: string,
    error: string,
    sent: Option<string>)

  const Initial: MentalQuiz :=
    MentalQuiz(QuizPage, map[], None, 0, "", EmailContact, "+1", "", None)

  const EmailError: string := "Please enter a valid email (example@example.com)"
  const PhoneError: string := "Please enter a valid phone number (7-15 digits)"

  /** `Object.values(finalAnswers)`: integer keys come out in ascending order. */
  function AnswersInIdOrder(m: map<int, Persona>): (r: seq<Persona>)
    ensures |r| <= 3
    ensures forall i :: 0 <= i < |r| ==> r[i] in m.Values
    ensures forall k :: 1 <= k <= 3 && k in m ==> m[k] in r
    ensures 1 in m && 2 in m && 3 in m ==> r == [m[1], m[2], m[3]]
    ensures 1 !in m && 2 !in m && 3 !in m ==> r == []
    ensures 1 in m ==> r[0] == m[1]
    ensures 3 in m ==> r[|r| - 1] == m[3]
  {
    (if 1 in m then [m[1]] else []) + (if 2 in m then [m[2]] else []) + (if 3 in m then [m[3]] else [])
  }

  /** `handleAnswerSelect(value)`. */
  function HandleAnswerSelect(s: MentalQuiz, p: Persona): MentalQuiz {
    var answers := s.answers[QuestionId(s.question) := p];
    if s.question < QuestionCount - 1 then
      s.(answers := answers, question := s.question + 1)
    else
      s.(answers := answers, result := CalculateResult(AnswersInIdOrder(answers)), page := ResultPage)
  }

  /** The `fullContact` of `handleContactSubmit`. */
  function FullContact(t: ContactType, code: string, info: string): string {
    if t.PhoneContact? then code + " " + info else info
  }

  /** The check the submit button applies to the typed contact. */
  predicate ContactValid(t: ContactType, info: string) {
    if t.EmailContact? then ValidateEmail(info) else ValidatePhoneNumber(info)
  }

  /** The submit button's handler. */
  function SubmitContact(s: MentalQuiz): MentalQuiz {
    if s.contactType.EmailContact? && !ValidateEmail(s.contactInfo) then s.(error := EmailError)
    else if s.contactType.PhoneContact? && !ValidatePhoneNumber(s.contactInfo) then s.(error := PhoneError)
    else s.(page := SuccessPage, sent := Some(FullContact(s.contactType, s.countryCode, s.contactInfo)))
  }

  /** The user's actions. `Select(i)` clicks the i-th option; `Edit(text)` is
      the input's change event; `PickCountry(code)` is the country select. */
  datatype Event = Select(option: nat) | GoBack | UseEmail | UsePhone | PickCountry(code: string) | Edit(text: string) | Submit

  /** The result page (and its form) is only rendered once a result is set. */
  predicate ShowsForm(s: MentalQuiz) {
    s.page.ResultPage? && s.result.Some?
  }

  /** One user action. An action whose control is not on screen does nothing;
      `goBack` on the first question closes the window, which is left out. */
  function Step(s: MentalQuiz, e: Event): MentalQuiz {
    match e
    case Select(i) =>
      if s.page.QuizPage? && 0 <= s.question < QuestionCount && i < |Options| then HandleAnswerSelect(s, Options[i]) else s
    case GoBack =>
      if s.page.QuizPage? && s.question > 0 then s.(question := s.question - 1) else s
    case UseEmail =>
      if ShowsForm(s) then s.(contactType := EmailContact, contactInfo := "", error := "") else s
    case UsePhone =>
      if ShowsForm(s) then s.(contactType := PhoneContact, contactInfo := "", error := "") else s
    case PickCountry(code) =>
      if ShowsForm(s) && s.contactType.PhoneContact? then s.(countryCode := code) else s
    case Edit(text) =>
      if ShowsForm(s) then
        s.(contactInfo := if s.contactType.PhoneContact? then FormatPhoneNumber(text) else text, error := "")
      else s
    case Submit =>
      if ShowsForm(s) && s.contactInfo != "" then SubmitContact(s) else s
  }

  function Run(s: MentalQuiz, events: seq<Event>): MentalQuiz
    decreases |events|
  {
    if events == [] then s else Run(Step(s, events[0]), events[1..])
  }

  // ---------------------------------------------------------------------------
  // The invariant of reachable states.

  predicate Valid(s: MentalQuiz) {
    && 0 <= s.question < QuestionCount
    && (forall id :: id in s.answers ==> 1 <= id <= QuestionCount)
    && (forall id :: 1 <= id <= s.question ==> id in s.answers)
    && (s.contactType.PhoneContact? ==> FormatPhoneNumber(s.contactInfo) == s.contactInfo)
    && (s.page.QuizPage? ==> s.result.None?)
    && (!s.page.QuizPage? ==>
          && s.question == QuestionCount - 1
          && (forall id :: 1 <= id <= QuestionCount ==> id in s.answers)
          && s.result == CalculateResult(AnswersInIdOrder(s.answers)))
    && (s.page.SuccessPage? <==> s.sent.Some?)
    && (s.page.SuccessPage? ==>
          && s.contactInfo != ""
          && ContactValid(s.contactType, s.contactInfo)
          && s.sent == Some(FullContact(s.contactType, s.countryCode, s.contactInfo)))
  }

  lemma EmptyFormatsToEmpty()
    ensures FormatPhoneNumber("") == ""
  {
    assert Digits("") == "";
  }

  lemma InitialIsValid()
    ensures Valid(Initial)
  {
  }

  lemma SelectKeepsValid(s: MentalQuiz, i: nat)
    requires Valid(s)
    ensures Valid(Step(s, Select(i)))
  {
  }

  lemma EditKeepsValid(s: MentalQuiz, text: string)
    requires Valid(s)
    ensures Valid(Step(s, Edit(text)))
  {
    if ShowsForm(s) && s.contactType.PhoneContact? {
      FormatIdempotent(text);
    }
  }

  /** Every action keeps the invariant. */
  lemma StepKeepsValid(s: MentalQuiz, e: Event)
    requires Valid(s)
    ensures Valid(Step(s, e))
  {
    match e
    case Select(i) => SelectKeepsValid(s, i);
    case Edit(text) => EditKeepsValid(s, text);
    case UsePhone => EmptyFormatsToEmpty();
    case GoBack =>
    case UseEmail =>
    case PickCountry(_) =>
    case Submit =>
  }

  lemma {:induction false} RunKeepsValid(s: MentalQuiz, events: seq<Event>)
    requires Valid(s)
    ensures Valid(Run(s, events))
    decreases |events|
  {
    if events != [] {
      StepKeepsValid(s, events[0]);
      RunKeepsValid(Step(s, events[0]), events[1..]);
    }
  }

  lemma ReachableStatesAreValid(events: seq<Event>)
    ensures Valid(Run(Initial, events))
  {
    InitialIsValid();
    RunKeepsValid(Initial, events);
  }

  // ---------------------------------------------------------------------------
  // What a visit can reach.

  /** Once past the questions, the shown persona is one of the three answers
      with the most votes, the earliest question winning a tie. */
  lemma ResultIsMajority(events: seq<Event>)
    ensures var s := Run(Initial, events);
      !s.page.QuizPage? ==>
        && 1 in s.answers && 2 in s.answers && 3 in s.answers
        && var votes := [s.answers[1], s.answers[2], s.answers[3]];
        && s.result.Some?
        && s.result.value in votes
        && (forall p :: p in votes ==> multiset(votes)[p] <= multiset(votes)[s.result.value])
        && (forall p :: p in votes && multiset(votes)[p] == multiset(votes)[s.result.value] ==>
              FirstPos(votes, s.result.value) <= FirstPos(votes, p))
  {
    ReachableStatesAreValid(events);
    var s := Run(Initial, events);
    if !s.page.QuizPage? {
      assert AnswersInIdOrder(s.answers) == [s.answers[1], s.answers[2], s.answers[3]];
      ResultIsFirstMajority(AnswersInIdOrder(s.answers));
    }
  }

  /** The success page is only reached with a contact that passed its check;
      a phone number then holds 7 to 10 digits and is sent behind the country
      code. */
  lemma SuccessNeedsValidContact(events: seq<Event>)
    ensures var s := Run(Initial, events);
      s.page.SuccessPage? ==>
        && s.sent.Some?
        && (s.contactType.EmailContact? ==> ValidateEmail(s.contactInfo) && s.sent.value == s.contactInfo)
        && (s.contactType.PhoneContact? ==>
              && 7 <= |Digits(s.contactInfo)| <= 10
              && s.sent.value == s.countryCode + " " + s.contactInfo)
  {
    ReachableStatesAreValid(events);
    var s := Run(Initial, events);
    if s.page.SuccessPage? && s.contactType.PhoneContact? {
      FormattedValidHasAtMostTenDigits(s.contactInfo);
    }
  }

  /** Nothing on the success page changes the state. */
  lemma SuccessIsFinal(s: MentalQuiz, e: Event)
    requires s.page.SuccessPage?
    ensures Step(s, e) == s
  {
  }

  // ---------------------------------------------------------------------------
  // Single transitions.

  /** An answer before the last question is stored under the question's id
      and shows the next question; the result is not computed yet. */
  lemma SelectAdvances(s: MentalQuiz, i: nat)
    requires s.page.QuizPage? && 0 <= s.question < QuestionCount - 1 && i < |Options|
    ensures var r := Step(s, Select(i));
      && r.page.QuizPage?
      && r.question == s.question + 1
      && r.answers == s.answers[s.question + 1 := Options[i]]
      && r.result == s.result
  {
  }

  /** The answer to the last question counts in the result, which the result
      page then shows. */
  lemma LastSelectShowsResult(s: MentalQuiz, i: nat)
    requires s.page.QuizPage? && s.question == QuestionCount - 1 && i < |Options|
    requires 1 in s.answers && 2 in s.answers
    ensures var r := Step(s, Select(i));
      && r.page.ResultPage?
      && r.question == s.question
      && r.answers[3] == Options[i]
      && r.result == CalculateResult([s.answers[1], s.answers[2], Options[i]])
  {
    var r := Step(s, Select(i));
    assert AnswersInIdOrder(r.answers) == [s.answers[1], s.answers[2], Options[i]];
  }

  /** Back moves to the previous question, and keeps the answers. */
  lemma GoBackDecrements(s: MentalQuiz)
    requires s.page.QuizPage?
    ensures var r := Step(s, GoBack);
      && r.answers == s.answers
      && (s.question > 0 ==> r.question == s.question - 1)
      && (s.question <= 0 ==> r == s)
  {
  }

  /** Switching between e-mail and phone empties the field and the error. */
  lemma SwitchClearsInput(s: MentalQuiz, e: Event)
    requires ShowsForm(s) && (e.UseEmail? || e.UsePhone?)
    ensures var r := Step(s, e);
      && r.contactInfo == "" && r.error == ""
      && r.contactType == (if e.UseEmail? then EmailContact else PhoneContact)
      && r.page == s.page
  {
  }

  /** Typing a phone number stores its display format; typing clears the error. */
  lemma EditFormatsPhone(s: MentalQuiz, text: string)
    requires ShowsForm(s)
    ensures var r := Step(s, Edit(text));
      && r.error == ""
      && (s.contactType.EmailContact? ==> r.contactInfo == text)
      && (s.contactType.PhoneContact? ==>
            && Digits(r.contactInfo) == Digits(text)[..Min(|Digits(text)|, 10)]
            && FormatPhoneNumber(r.contactInfo) == r.contactInfo)
  {
    FormatKeepsFirstTenDigits(text);
    FormatIdempotent(text);
  }

  /** An empty field keeps the button disabled. */
  lemma EmptyContactCannotSubmit(s: MentalQuiz)
    requires s.contactInfo == ""
    ensures Step(s, Submit) == s
  {
  }

  /** On a filled form, submitting reaches the success page exactly when the
      contact passes its check; otherwise the page stays and the error for the
      contact type is shown. */
  lemma SubmitSucceedsIffValid(s: MentalQuiz)
    requires ShowsForm(s) && s.contactInfo != ""
    ensures var r := Step(s, Submit);
      && (r.page.SuccessPage? <==> ContactValid(s.contactType, s.contactInfo))
      && (ContactValid(s.contactType, s.contactInfo) ==>
            r.sent == Some(FullContact(s.contactType, s.countryCode, s.contactInfo)))
      && (!ContactValid(s.contactType, s.contactInfo) ==>
            && r.page == s.page
            && r.sent == s.sent
            && r.contactInfo == s.contactInfo
            && r.error == (if s.contactType.EmailContact? then EmailError else PhoneError))
  {
  }

  lemma RunCons(s: MentalQuiz, e: Event, rest: seq<Event>)
    ensures Run(s, [e] + rest) == Run(Step(s, e), rest)
  {
    assert ([e] + rest)[1..] == rest;
  }

  lemma RunThree(s: MentalQuiz, a: Event, b: Event, c: Event)
    ensures Run(s, [a, b, c]) == Step(Step(Step(s, a), b), c)
  {
    var s1 := Step(s, a);
    var s2 := Step(s1, b);
    RunCons(s, a, [b, c]);
    assert [a] + [b, c] == [a, b, c];
    RunCons(s1, b, [c]);
    assert [b] + [c] == [b, c];
    RunCons(s2, c, []);
    assert [c] + [] == [c];
  }

  /** Three clicks from the first question reach the result page, with the
      result of the three chosen personas in question order. */
  lemma ThreeSelections(s: MentalQuiz, i: nat, j: nat, k: nat)
    requires s.page.QuizPage? && s.question == 0
    requires i < |Options| && j < |Options| && k < |Options|
    ensures var r := Run(s, [Select(i), Select(j), Select(k)]);
      r.page.ResultPage? && r.result == CalculateResult([Options[i], Options[j], Options[k]])
  {
    RunThree(s, Select(i), Select(j), Select(k));
    var s1 := Step(s, Select(i));
    SelectAdvances(s, i);
    var s2 := Step(s1, Select(j));
    SelectAdvances(s1, j);
    LastSelectShowsResult(s2, k);
  }

  /** Scenario: three different personas chosen in a row; the first wins. */
  lemma ThreeDifferentChoices(i: nat, j: nat, k: nat)
    requires i < |Options| && j < |Options| && k < |Options|
    requires i != j && j != k && i != k
    ensures var s := Run(Initial, [Select(i), Select(j), Select(k)]);
      s.page.ResultPage? && s.result == Some(Options[i])
  {
    ThreeSelections(Initial, i, j, k);
    var a, b, c := Options[i], Options[j], Options[k];
    assert a != b && b != c && a != c by {
      OptionsDiffer(i, j);
      OptionsDiffer(j, k);
      OptionsDiffer(i, k);
    }
    ThreeDifferentAnswers(a, b, c);
  }

  lemma OptionsDiffer(i: int, j: int)
    requires 0 <= i < |Options| && 0 <= j < |Options| && i != j
    ensures Options[i] != Options[j]
  {
  }
}

=== FILE: persona_vote.dfy ===
/**
 * `calculateResult` of the motivation quiz: count the answers per persona in
 * the order they were given, take the highest count, and pick the first
 * persona, in counting order, that reached it.
 */
module PersonaVote {
  import opened JsRuntime

  /** One entry of the `scores` record. */
  datatype Score<T> = Score(key: T, count: nat)

  /** `scores[answer] = (scores[answer] || 0) + 1`: a new key is appended,
      as a JavaScript object keeps its (non-numeric) keys in insertion order. */
  function Bump<T(==)>(scores: seq<Score<T>>, answer: T): seq<Score<T>> {
    if scores == [] then [Score(answer, 1)]
    else if scores[0].key == answer then [Score(answer, scores[0].count + 1)] + scores[1..]
    else [scores[0]] + Bump(scores[1..], answer)
  }

  /** The `forEach` over the answers. */
  function Tally<T(==)>(answers: seq<T>): seq<Score<T>> {
    if answers == [] then [] else Bump(Tally(answers[..|answers| - 1]), answers[|answers| - 1])
  }

  /** `Math.max(...Object.values(scores))`, taken as 0 when there are no scores. */
  function MaxCount<T>(scores: seq<Score<T>>): (m: nat)
    ensures forall i :: 0 <= i < |scores| ==> scores[i].count <= m
    ensures scores != [] ==> exists i :: 0 <= i < |scores| && scores[i].count == m
  {
    if scores == [] then 0
    else
      var rest := MaxCount(scores[1..]);
      if scores[0].count >= rest then scores[0].count else rest
  }

  /** The position of the first score equal to `n`: `winners[0]`. */
  function FirstWithCount<T>(scores: seq<Score<T>>, n: nat): (r: Option<nat>)
    ensures r.Some? ==> r.value < |scores| && scores[r.value].count == n
    ensures r.Some? ==> forall i :: 0 <= i < r.value ==> scores[i].count != n
    ensures r.None? ==> forall i :: 0 <= i < |scores| ==> scores[i].count != n
  {
    if scores == [] then None
    else if scores[0].count == n then Some(0)
    else match FirstWithCount(scores[1..], n)
      case None => None
      case Some(k) => Some(k + 1)
  }

  /** `calculateResult`; `None` is the `undefined` of an empty answer record. */
  function CalculateResult<T(==)>(answers: seq<T>): Option<T> {
    var scores := Tally(answers);
    match FirstWithCount(scores, MaxCount(scores))
    case None => None
    case Some(i) => Some(scores[i].key)
  }

  // ---------------------------------------------------------------------------
  // Reference description.

  function Keys<T>(scores: seq<Score<T>>): (ks: seq<T>)
    ensures |ks| == |scores| && forall i :: 0 <= i < |scores| ==> ks[i] == scores[i].key
  {
    if scores == [] then [] else [scores[0].key] + Keys(scores[1..])
  }

  /** The distinct answers in the order of their first occurrence. */
  function Distinct<T(==)>(xs: seq<T>): seq<T> {
    if xs == [] then []
    else
      var d := Distinct(xs[..|xs| - 1]);
      if xs[|xs| - 1] in d then d else d + [xs[|xs| - 1]]
  }

  predicate NoDuplicates<T(==)>(ks: seq<T>) {
    forall i, j :: 0 <= i < j < |ks| ==> ks[i] != ks[j]
  }

  /** The position of the first occurrence of `k`. */
  function FirstPos<T(==)>(xs: seq<T>, k: T): (p: nat)
    requires k in xs
    ensures p < |xs| && xs[p] == k && forall i :: 0 <= i < p ==> xs[i] != k
  {
    if xs[0] == k then 0 else 1 + FirstPos(xs[1..], k)
  }

  // ---------------------------------------------------------------------------
  // Lemmas about the tally.

  lemma {:induction false} BumpKeys<T>(scores: seq<Score<T>>, a: T)
    ensures Keys(Bump(scores, a)) == if a in Keys(scores) then Keys(scores) else Keys(scores) + [a]
  {
    if scores != [] {
      BumpKeys(scores[1..], a);
      assert Keys(scores) == [scores[0].key] + Keys(scores[1..]);
    }
  }

  lemma {:induction false} BumpCounts<T>(scores: seq<Score<T>>, a: T)
    requires NoDuplicates(Keys(scores))
    ensures var b := Bump(scores, a);
      forall i :: 0 <= i < |b| ==>
        b[i].count == (if i < |scores| then scores[i].count else 0) + (if b[i].key == a then 1 else 0)
  {
    if scores != [] {
      assert NoDuplicates(Keys(scores[1..])) by {
        assert forall i :: 0 <= i < |scores| - 1 ==> Keys(scores[1..])[i] == Keys(scores)[i + 1];
      }
      BumpCounts(scores[1..], a);
      if scores[0].key != a {
        var b := Bump(scores, a);
        assert b == [scores[0]] + Bump(scores[1..], a);
        BumpKeys(scores[1..], a);
      } else {
        forall i | 1 <= i < |scores| ensures scores[i].key != a {
          assert Keys(scores)[0] != Keys(scores)[i];
        }
      }
    }
  }

  lemma {:induction false} DistinctHasNoDuplicates<T>(xs: seq<T>)
    ensures NoDuplicates(Distinct(xs))
    ensures forall k :: k in Distinct(xs) ==> k in xs
    ensures forall k :: k in xs ==> k in Distinct(xs)
  {
    if xs != [] {
      var p := xs[..|xs| - 1];
      DistinctHasNoDuplicates(p);
      assert xs == p + [xs[|xs| - 1]];
    }
  }

  /** The tally lists every distinct answer once, in the order of first
      occurrence, with the number of times it was given. */
  lemma {:induction false} TallyMatchesCounts<T>(xs: seq<T>)
    ensures Keys(Tally(xs)) == Distinct(xs)
    ensures var t := Tally(xs);
      forall i :: 0 <= i < |t| ==> t[i].count == multiset(xs)[t[i].key]
  {
    if xs != [] {
      var p, a := xs[..|xs| - 1], xs[|xs| - 1];
      assert xs == p + [a];
      assert multiset(xs) == multiset(p) + multiset{a};
      TallyMatchesCounts(p);
      DistinctHasNoDuplicates(p);
      var s := Tally(p);
      var t := Bump(s, a);
      assert Tally(xs) == t;
      BumpKeys(s, a);
      BumpCounts(s, a);
      forall i | 0 <= i < |t| ensures t[i].count == multiset(xs)[t[i].key] {
        CountAfterBump(s, t, p, a, i);
      }
    }
  }

  lemma CountAfterBump<T>(s: seq<Score<T>>, t: seq<Score<T>>, p: seq<T>, a: T, i: int)
    requires Keys(s) == Distinct(p)
    requires forall j :: 0 <= j < |s| ==> s[j].count == multiset(p)[s[j].key]
    requires forall k :: k in Distinct(p) ==> k in p
    requires forall k :: k in p ==> k in Distinct(p)
    requires Keys(t) == if a in Keys(s) then Keys(s) else Keys(s) + [a]
    requires forall j :: 0 <= j < |t| ==>
        t[j].count == (if j < |s| then s[j].count else 0) + (if t[j].key == a then 1 else 0)
    requires 0 <= i < |t|
    ensures t[i].count == (multiset(p) + multiset{a})[t[i].key]
  {
    if i < |s| {
      assert Keys(t)[i] == Keys(s)[i];
    } else {
      assert Keys(t)[i] == a;
      assert a !in Distinct(p);
    }
  }

  /** Distinct answers keep the order of their first occurrences. */
  lemma {:induction false} DistinctOrder<T>(xs: seq<T>, v: int, w: int)
    requires 0 <= v < w < |Distinct(xs)|
    ensures Distinct(xs)[v] in xs && Distinct(xs)[w] in xs
    ensures FirstPos(xs, Distinct(xs)[v]) < FirstPos(xs, Distinct(xs)[w])
  {
    DistinctHasNoDuplicates(xs);
    assert xs != [];
    var p, a := xs[..|xs| - 1], xs[|xs| - 1];
    assert xs == p + [a];
    var d := Distinct(p);
    assert Distinct(xs) == if a in d then d else d + [a];
    DistinctHasNoDuplicates(p);
    var kv, kw := Distinct(xs)[v], Distinct(xs)[w];
    assert kv == d[v] && kv in d;
    FirstPosInPrefix(p, a, kv);
    if w < |d| {
      assert kw == d[w];
      DistinctOrder(p, v, w);
      FirstPosInPrefix(p, a, kw);
    } else {
      assert kw == a && a !in p;
      assert FirstPos(xs, kw) == |p|;
    }
  }

  lemma FirstPosInPrefix<T>(p: seq<T>, a: T, k: T)
    requires k in p
    ensures k in p + [a] && FirstPos(p + [a], k) == FirstPos(p, k)
  {
    var i, j := FirstPos(p + [a], k), FirstPos(p, k);
    assert (p + [a])[j] == k;
  }

  /** `calculateResult` names an answer that was given most often, and among
      those the one given first; it is `undefined` only when nothing was answered. */
  lemma ResultIsFirstMajority<T>(xs: seq<T>)
    ensures var r := CalculateResult(xs);
      && (r.None? <==> xs == [])
      && (r.Some? ==>
            && r.value in xs
            && (forall k :: k in xs ==> multiset(xs)[k] <= multiset(xs)[r.value])
            && (forall k :: k in xs && multiset(xs)[k] == multiset(xs)[r.value] ==>
                  FirstPos(xs, r.value) <= FirstPos(xs, k)))
  {
    var t := Tally(xs);
    TallyMatchesCounts(xs);
    DistinctHasNoDuplicates(xs);
    var d := Distinct(xs);
    assert Keys(t) == d;
    var m := MaxCount(t);
    if xs != [] {
      assert xs[0] in d;
      assert t != [];
      var w := FirstWithCount(t, m).value;
      var r := t[w].key;
      assert CalculateResult(xs) == Some(r);
      assert r == d[w];
      forall k | k in xs
        ensures multiset(xs)[k] <= multiset(xs)[r]
        ensures multiset(xs)[k] == multiset(xs)[r] ==> FirstPos(xs, r) <= FirstPos(xs, k)
      {
        assert k in d;
        var v :| 0 <= v < |d| && d[v] == k;
        assert t[v].key == k;
        if multiset(xs)[k] == multiset(xs)[r] && v != w {
          assert w < v;
          DistinctOrder(xs, w, v);
        }
      }
    } else {
      assert t == [];
    }
  }

  /** Three different answers: the first question's answer wins. */
  lemma ThreeDifferentAnswers<T>(a: T, b: T, c: T)
    requires a != b && b != c && a != c
    ensures CalculateResult([a, b, c]) == Some(a)
  {
    ResultIsFirstMajority([a, b, c]);
    assert multiset([a, b, c])[a] == 1 && multiset([a, b, c])[b] == 1 && multiset([a, b, c])[c] == 1;
  }

  /** Two equal answers out of three win over the third. */
  lemma TwoOfThreeWin<T>(a: T, b: T, c: T)
    requires (a == b || a == c || b == c) && !(a == b && b == c)
    ensures var winner := if a == b || a == c then a else b;
      CalculateResult([a, b, c]) == Some(winner)
  {
    var xs := [a, b, c];
    ResultIsFirstMajority(xs);
    assert xs[0] == a && xs[1] == b && xs[2] == c;
    if a == b || a == c {
      assert multiset(xs)[a] == 2;
      assert b != c ==> (multiset(xs)[b] == 1 || multiset(xs)[c] == 1);
    } else {
      assert multiset(xs)[b] == 2 && multiset(xs)[a] == 1;
    }
  }
}

=== FILE: quiz_answers.dfy ===
/**
 * The answer record of the fitness quiz: eleven string fields, all empty when
 * a session starts, overwritten one at a time as the user answers.
 */
module QuizAnswers {

  datatype Field =
    | Goal | Training | Experience | Frequency | Duration | Diet | Age
    | Weight | Height | Email | Name

  datatype QuizData = QuizData(
    goal: string,
    training: string,
    experience: string,
    frequency: string,
    duration: string,
    diet: string,
    age: string,
    weight: string,
    height: string,
    email: string,
    name: string)

  /** The record a session starts with. */
  const Blank: QuizData := QuizData("", "", "", "", "", "", "", "", "", "", "")

  /** The declaration order of the fields, which is what `Object.keys` lists;
      the quiz uses it to name the field a multiple-choice step answers. */
  const FieldOrder: seq<Field> :=
    [Goal, Training, Experience, Frequency, Duration, Diet, Age, Weight, Height, Email, Name]

  function Get(q: QuizData, f: Field): string {
    match f
    case Goal => q.goal
    case Training => q.training
    case Experience => q.experience
    case Frequency => q.frequency
    case Duration => q.duration
    case Diet => q.diet
    case Age => q.age
    case Weight => q.weight
    case Height => q.height
    case Email => q.email
    case Name => q.name
  }

  /** `{ ...prev, [field]: value }`: the named field takes the new value and
      every other field keeps its old one. */
  function Set(q: QuizData, f: Field, v: string): (r: QuizData)
    ensures Get(r, f) == v
    ensures forall g :: g != f ==> Get(r, g) == Get(q, g)
  {
    match f
    case Goal => q.(goal := v)
    case Training => q.(training := v)
    case Experience => q.(experience := v)
    case Frequency => q.(frequency := v)
    case Duration => q.(duration := v)
    case Diet => q.(diet := v)
    case Age => q.(age := v)
    case Weight => q.(weight := v)
    case Height => q.(height := v)
    case Email => q.(email := v)
    case Name => q.(name := v)
  }

  /** Two records that agree on every field are the same record. */
  lemma {:induction false} Extensionality(p: QuizData, q: QuizData)
    requires forall f :: Get(p, f) == Get(q, f)
    ensures p == q
  {
    assert Get(p, Goal) == Get(q, Goal) && Get(p, Training) == Get(q, Training);
    assert Get(p, Experience) == Get(q, Experience) && Get(p, Frequency) == Get(q, Frequency);
    assert Get(p, Duration) == Get(q, Duration) && Get(p, Diet) == Get(q, Diet);
    assert Get(p, Age) == Get(q, Age) && Get(p, Weight) == Get(q, Weight);
    assert Get(p, Height) == Get(q, Height) && Get(p, Email) == Get(q, Email);
    assert Get(p, Name) == Get(q, Name);
  }

  /** Answering the same field twice keeps only the second answer. */
  lemma SetTwice(q: QuizData, f: Field, v: string, w: string)
    ensures Set(Set(q, f, v), f, w) == Set(q, f, w)
  {
    var a, b := Set(Set(q, f, v), f, w), Set(q, f, w);
    forall g ensures Get(a, g) == Get(b, g) {
    }
    Extensionality(a, b);
  }

  /** Re-entering a field's current value changes nothing. */
  lemma SetCurrentValue(q: QuizData, f: Field)
    ensures Set(q, f, Get(q, f)) == q
  {
    var a := Set(q, f, Get(q, f));
    forall g ensures Get(a, g) == Get(q, g) {
    }
    Extensionality(a, q);
  }
}

=== FILE: quiz_funnel.dfy ===
/**
 * The fitness funnel's navigation: a landing screen, nine quiz steps (seven
 * multiple-choice questions, then a name and an e-mail field) and the results
 * screen. The 300 ms auto-advance delay is taken as instantaneous.
 */
module QuizFunnel {
  import opened QuizAnswers

  datatype Screen = Landing | Quiz | Results

  datatype Funnel = Funnel(screen: Screen, quizStep: int, answers: QuizData)

  const TotalQuizSteps: int := 9

  /** The state a visit starts in. */
  const Initial: Funnel := Funnel(Landing, 0, Blank)

  /** The option values of the seven multiple-choice questions, in order. */
  function OptionValues(step: int): seq<string> {
    if step == 0 then ["lose-fat", "build-muscle", "get-toned", "general-health"]
    else if step == 1 then ["gym", "home-equipment", "bodyweight"]
    else if step == 2 then ["beginner", "intermediate", "advanced"]
    else if step == 3 then ["2", "3", "4", "5"]
    else if step == 4 then ["20 minutes", "30-45 minutes", "1 hour+"]
    else if step == 5 then ["none", "vegetarian", "vegan", "keto", "gluten-free"]
    else if step == 6 then ["under-18", "18-24", "25-35", "36-50", "50+"]
    else []
  }

  /** The user's actions. `Choose(i)` clicks the i-th option of the shown
      question; `Type(text)` edits the shown text field. */
  datatype Event = Start | Choose(option: nat) | Type(text: string) | Back | Previous | Next

  /** `handleQuizAnswer(field, value)`: store the answer, and on a
      multiple-choice step move on. */
  function HandleQuizAnswer(s: Funnel, f: Field, v: string): Funnel {
    var answered := s.(answers := Set(s.answers, f, v));
    if s.quizStep <= 6 then
      if s.quizStep < TotalQuizSteps - 1 then answered.(quizStep := s.quizStep + 1)
      else answered.(screen := Results)
    else answered
  }

  /** Whether the multiple-choice panel is on screen. */
  predicate ShowsQuestion(s: Funnel) {
    s.screen.Quiz? && 0 <= s.quizStep < |FieldOrder| && OptionValues(s.quizStep) != []
  }

  /** Whether the name/e-mail panel, with Previous and Next, is on screen. */
  predicate ShowsManualInput(s: Funnel) {
    s.screen.Quiz? && s.quizStep > 6 && OptionValues(s.quizStep) == []
  }

  /** One user action. An action whose control is not on screen does nothing. */
  function Step(s: Funnel, e: Event): Funnel {
    match e
    case Start =>
      if s.screen.Landing? then s.(screen := Quiz) else s
    case Choose(i) =>
      if ShowsQuestion(s) && i < |OptionValues(s.quizStep)| then
        HandleQuizAnswer(s, FieldOrder[s.quizStep], OptionValues(s.quizStep)[i])
      else s
    case Type(text) =>
      if ShowsManualInput(s) && (s.quizStep == 7 || s.quizStep == 8) then
        HandleQuizAnswer(s, if s.quizStep == 7 then Name else Email, text)
      else s
    case Back =>
      if !s.screen.Quiz? then s
      else if s.quizStep > 0 then s.(quizStep := s.quizStep - 1)
      else s.(screen := Landing)
    case Previous =>
      if ShowsManualInput(s) then s.(quizStep := s.quizStep - 1) else s
    case Next =>
      if !ShowsManualInput(s) then s
      else if s.quizStep < TotalQuizSteps - 1 then s.(quizStep := s.quizStep + 1)
      else s.(screen := Results)
  }

  function Run(s: Funnel, events: seq<Event>): Funnel
    decreases |events|
  {
    if events == [] then s else Run(Step(s, events[0]), events[1..])
  }

  // ---------------------------------------------------------------------------
  // The invariant of reachable states.

  /** Every step below the current one (up to the last question) holds a
      chosen option. */
  predicate ChoicesBelowAnswered(s: Funnel) {
    forall k :: 0 <= k < s.quizStep && k <= 6 ==> Get(s.answers, FieldOrder[k]) != ""
  }

  predicate Valid(s: Funnel) {
    && 0 <= s.quizStep <= 8
    && (s.screen.Landing? ==> s.quizStep == 0)
    && (s.screen.Results? ==> s.quizStep == 8)
    && ChoicesBelowAnswered(s)
  }

  lemma OptionsAreNonEmpty(step: int)
    ensures forall i :: 0 <= i < |OptionValues(step)| ==> OptionValues(step)[i] != ""
    ensures 0 <= step <= 6 <==> OptionValues(step) != []
  {
  }

  lemma ChooseKeepsValid(s: Funnel, i: nat)
    requires Valid(s)
    ensures Valid(Step(s, Choose(i)))
  {
    OptionsAreNonEmpty(s.quizStep);
    if ShowsQuestion(s) && i < |OptionValues(s.quizStep)| {
      var f := FieldOrder[s.quizStep];
      var r := Step(s, Choose(i));
      assert r.answers == Set(s.answers, f, OptionValues(s.quizStep)[i]);
      forall k | 0 <= k < r.quizStep && k <= 6
        ensures Get(r.answers, FieldOrder[k]) != ""
      {
        if k < s.quizStep {
          assert FieldOrder[k] != f;
        }
      }
    }
  }

  lemma TypeKeepsValid(s: Funnel, text: string)
    requires Valid(s)
    ensures Valid(Step(s, Type(text)))
  {
    OptionsAreNonEmpty(s.quizStep);
    if ShowsManualInput(s) && (s.quizStep == 7 || s.quizStep == 8) {
      var f := if s.quizStep == 7 then Name else Email;
      var r := Step(s, Type(text));
      assert r.answers == Set(s.answers, f, text);
      forall k | 0 <= k < r.quizStep && k <= 6
        ensures Get(r.answers, FieldOrder[k]) != ""
      {
        assert FieldOrder[k] != f;
      }
    }
  }

  /** Every action keeps the invariant; an answer advances at once, so no
      second click reads a stale step. */
  lemma StepKeepsValid(s: Funnel, e: Event)
    requires Valid(s)
    ensures Valid(Step(s, e))
  {
    match e
    case Choose(i) => ChooseKeepsValid(s, i);
    case Type(text) => TypeKeepsValid(s, text);
    case Start =>
    case Back =>
    case Previous =>
    case Next =>
      OptionsAreNonEmpty(s.quizStep);
  }

  /** Whatever the user does, with the auto-advance taken as instantaneous,
      the quiz step stays within [0, 8], the landing screen sits at step 0
      and the results screen at step 8. */
  lemma ReachableStatesAreValid(events: seq<Event>)
    ensures Valid(Run(Initial, events))
  {
    RunProgress(Initial, events);
  }

  /** With the auto-advance taken as instantaneous, the results screen is
      only reached with all seven questions answered. */
  lemma ResultsFollowAllChoices(events: seq<Event>)
    ensures var s := Run(Initial, events);
      s.screen.Results? ==> forall k :: 0 <= k < 7 ==> Get(s.answers, FieldOrder[k]) != ""
  {
    ReachableStatesAreValid(events);
  }

  // ---------------------------------------------------------------------------
  // Single transitions.

  /** An answer changes only the named field. */
  lemma AnswerChangesOnlyItsField(s: Funnel, f: Field, v: string)
    ensures var r := HandleQuizAnswer(s, f, v);
      && Get(r.answers, f) == v
      && forall g :: g != f ==> Get(r.answers, g) == Get(s.answers, g)
  {
  }

  /** An answer moves the quiz on exactly on the multiple-choice steps, and
      never straight to the results screen. */
  lemma AutoAdvanceOnlyOnChoices(s: Funnel, f: Field, v: string)
    ensures var r := HandleQuizAnswer(s, f, v);
      && r.screen == s.screen
      && (r.quizStep == s.quizStep + 1 <==> s.quizStep <= 6)
      && (r.quizStep == s.quizStep <==> s.quizStep > 6)
  {
  }

  /** Next on the e-mail step shows the results. */
  lemma NextFromLastStepShowsResults(s: Funnel)
    requires s.screen.Quiz? && s.quizStep == 8
    ensures Step(s, Next).screen == Results
  {
  }

  /** Back on the first question returns to the landing screen. */
  lemma BackFromFirstStepLeavesQuiz(s: Funnel)
    requires s.screen.Quiz? && s.quizStep == 0
    ensures Step(s, Back) == s.(screen := Landing)
  {
  }

  // ---------------------------------------------------------------------------
  // How far the results screen is.

  /** Distance travelled: 0 on landing, 1 + step in the quiz, 10 on results. */
  function Progress(s: Funnel): int {
    match s.screen
    case Landing => 0
    case Quiz => 1 + s.quizStep
    case Results => 10
  }

  lemma StepProgressesByAtMostOne(s: Funnel, e: Event)
    requires Valid(s)
    ensures Progress(Step(s, e)) <= Progress(s) + 1
  {
    OptionsAreNonEmpty(s.quizStep);
  }

  lemma {:induction false} RunProgress(s: Funnel, events: seq<Event>)
    requires Valid(s)
    ensures Valid(Run(s, events))
    ensures Progress(Run(s, events)) <= Progress(s) + |events|
    decreases |events|
  {
    if events != [] {
      StepProgressesByAtMostOne(s, events[0]);
      StepKeepsValid(s, events[0]);
      RunProgress(Step(s, events[0]), events[1..]);
    }
  }

  /** No sequence of fewer than ten actions reaches the results screen. */
  lemma ResultsTakeTenActions(events: seq<Event>)
    requires Run(Initial, events).screen.Results?
    ensures |events| >= 10
  {
    RunProgress(Initial, events);
  }

  /** Running two action lists one after the other is running their concatenation. */
  lemma {:induction false} RunAppend(s: Funnel, a: seq<Event>, b: seq<Event>)
    ensures Run(s, a + b) == Run(Run(s, a), b)
    decreases |a|
  {
    if a != [] {
      assert (a + b)[0] == a[0] && (a + b)[1..] == a[1..] + b;
      RunAppend(Step(s, a[0]), a[1..], b);
    } else {
      assert a + b == b;
    }
  }

  /** On a question, a valid click stores the option and shows the next step. */
  lemma ChooseAdvances(s: Funnel, i: nat)
    requires s.screen.Quiz? && 0 <= s.quizStep <= 6 && i < |OptionValues(s.quizStep)|
    ensures Step(s, Choose(i)) ==
      Funnel(Quiz, s.quizStep + 1, Set(s.answers, FieldOrder[s.quizStep], OptionValues(s.quizStep)[i]))
  {
  }

  /** Clicking the first option on each of the seven questions. */
  lemma FirstOptions(s: Funnel)
    requires s.screen.Quiz? && s.quizStep == 0
    ensures var r := Run(s, seq(7, _ => Choose(0)));
      r.screen.Quiz? && r.quizStep == 7
  {
    var e := seq(7, _ => Choose(0));
    var t := s;
    for k := 0 to 7
      invariant t.screen.Quiz? && t.quizStep == k
      invariant Run(s, e) == Run(t, e[k..])
    {
      OptionsAreNonEmpty(k);
      ChooseAdvances(t, 0);
      assert e[k..][1..] == e[k + 1..];
      t := Step(t, Choose(0));
    }
  }

  /** Scenario: Start, the first option of each question, then Next twice
      reaches the results screen in the fewest possible actions. */
  lemma FastestVisit()
    ensures Run(Initial, [Start] + seq(7, _ => Choose(0)) + [Next, Next]).screen.Results?
  {
    var choices := seq(7, _ => Choose(0));
    var s1 := Run(Initial, [Start]);
    assert s1 == Funnel(Quiz, 0, Blank);
    FirstOptions(s1);
    var s8 := Run(s1, choices);
    var s10 := Run(s8, [Next, Next]);
    assert s10.screen.Results? by {
      assert [Next, Next][1..] == [Next];
      OptionsAreNonEmpty(7);
      OptionsAreNonEmpty(8);
    }
    RunAppend(Initial, [Start], choices);
    RunAppend(Initial, [Start] + choices, [Next, Next]);
  }
}

=== FILE: workout_plan.dfy ===
/**
 * The workout-plan generator: an ordered decision table on goal, experience
 * and training days per week that picks one of eleven fixed rotations, filled
 * in with the session length and the gym/home variant of the lists.
 */
module WorkoutPlan {
  import opened JsRuntime
  import opened QuizAnswers
  import opened WorkoutTemplates

  /** `Number.parseInt(frequency) || 3`. */
  function DaysPerWeek(frequency: string): (d: int)
    ensures d != 0
    ensures d == 3 || ParseInt(frequency) == Some(d)
    ensures ParseInt(frequency) == None ==> d == 3
  {
    OrElse(ParseInt(frequency), 3)
  }

  /** The branch condition of the push/pull/legs rotation. */
  predicate QualifiesForPushPullLegs(goal: string, experience: string, days: int) {
    (experience == "intermediate" || experience == "advanced") && goal == "build-muscle" && days >= 3
  }

  /** The decision table, evaluated top to bottom, first match wins. */
  function SelectSplit(goal: string, experience: string, days: int): Split
  {
    var isAdvanced := experience == "advanced";
    var isIntermediate := experience == "intermediate";
    if (isIntermediate || isAdvanced) && goal == "build-muscle" && days >= 3 then
      if days >= 6 then PushPullLegs6
      else if days >= 4 then PushPullLegs4
      else PushPullLegs3
    else if goal == "lose-fat" then
      if days >= 5 then FatLoss5
      else if days == 4 then FatLoss4
      else if days == 2 then FatLoss2
      else FatLoss3
    else
      if days >= 5 then Gentle5
      else if days == 4 then Gentle4
      else if days == 2 then Gentle2
      else Gentle3
  }

  function PlanSplit(q: QuizData): Split {
    SelectSplit(q.goal, q.experience, DaysPerWeek(q.frequency))
  }

  /** `generateWorkoutPlan`: only `training == "gym"` selects the gym lists. */
  function GenerateWorkoutPlan(q: QuizData): seq<WorkoutDay> {
    Schedule(PlanSplit(q), q.duration, q.training == "gym")
  }

  // ---------------------------------------------------------------------------
  // Reference descriptions the generated plans are checked against.

  /** The number of days the frequency tier promises. */
  function ExpectedLength(pushPullLegs: bool, days: int): nat {
    if pushPullLegs then (if days >= 6 then 6 else if days >= 4 then 4 else 3)
    else if days >= 5 then 5
    else if days == 4 then 4
    else if days == 2 then 2
    else 3
  }

  /** Which warm-up goes with which kind of day: HIIT and circuit days get the
      HIIT warm-up, cardio-and-core days the general one, strength days the
      strength one, the rest day its walk-and-stretch, everything else (the
      gentle rotations) the gentle one. */
  function WarmupFor(t: DayType): WarmUp {
    if t.FullBodyHiit? || t.FullBodyCircuit? then HiitWarmUp
    else if t.CardioCore? then GeneralWarmUp
    else if t.RestDay? then RecoveryWarmUp
    else if || t.PushDay? || t.PullDay? || t.LegsDay?
            || t.UpperBodyStrength? || t.UpperBody?
            || t.LowerBodyStrength? || t.LowerBody?
            || t.StrengthCardio? || t.StrengthCircuit?
    then StrengthWarmUp
    else GentleWarmUp
  }

  predicate WeekdaysAscending(plan: seq<WorkoutDay>) {
    forall i, j :: 0 <= i < j < |plan| ==> plan[i].day.Index() < plan[j].day.Index()
  }

  /** Two plans with the same days, types, durations and warm-ups. */
  predicate SameSchedule(a: seq<WorkoutDay>, b: seq<WorkoutDay>) {
    && |a| == |b|
    && forall i :: 0 <= i < |a| ==>
         a[i].day == b[i].day && a[i].dayType == b[i].dayType
         && a[i].duration == b[i].duration && a[i].warmup == b[i].warmup
  }

  // ---------------------------------------------------------------------------
  // Facts about single rotations.

  /** Every rotation schedules `Length()` days, and the i-th day names the
      i-th lists of the rotation in the chosen variant. */
  lemma ScheduleShape(s: Split, duration: string, hasGym: bool)
    ensures var plan := Schedule(s, duration, hasGym);
      && |plan| == s.Length()
      && forall i :: 0 <= i < |plan| ==> plan[i].lists == ListKey(s, i, hasGym)
  {
  }

  /** Only the push/pull/legs rotations open with a push day. */
  lemma ScheduleFirstDay(s: Split, duration: string, hasGym: bool)
    ensures Schedule(s, duration, hasGym)[0].dayType == PushDay <==> s.IsPushPullLegs()
  {
  }

  /** Position 3 of the six- and four-day push/pull/legs rotations is the
      only rest day; it is a Thursday with the recovery duration, and every
      other day carries the user's duration. */
  lemma ScheduleRestDays(s: Split, duration: string, hasGym: bool)
    ensures var plan := Schedule(s, duration, hasGym);
      forall i :: 0 <= i < |plan| ==>
        && (plan[i].dayType == RestDay <==> ((s == PushPullLegs6 || s == PushPullLegs4) && i == 3))
        && (plan[i].dayType == RestDay ==> plan[i].day == Thursday && plan[i].duration == RecoveryDuration)
        && (plan[i].dayType != RestDay ==> plan[i].duration == duration)
  {
  }

  predicate WarmupsFit(plan: seq<WorkoutDay>) {
    forall i :: 0 <= i < |plan| ==> plan[i].warmup == WarmupFor(plan[i].dayType)
  }

  lemma PushPullLegsWarmups(s: Split, duration: string, hasGym: bool)
    requires s.IsPushPullLegs()
    ensures WarmupsFit(Schedule(s, duration, hasGym))
  {
  }

  lemma FatLossWarmups(s: Split, duration: string, hasGym: bool)
    requires s.IsFatLoss()
    ensures WarmupsFit(Schedule(s, duration, hasGym))
  {
  }

  lemma GentleWarmups(s: Split, duration: string, hasGym: bool)
    requires s.IsGentle()
    ensures WarmupsFit(Schedule(s, duration, hasGym))
  {
  }

  /** Every day of every rotation gets the warm-up its type calls for. */
  lemma ScheduleWarmups(s: Split, duration: string, hasGym: bool)
    ensures WarmupsFit(Schedule(s, duration, hasGym))
  {
    if s.IsPushPullLegs() {
      PushPullLegsWarmups(s, duration, hasGym);
    } else if s.IsFatLoss() {
      FatLossWarmups(s, duration, hasGym);
    } else {
      GentleWarmups(s, duration, hasGym);
    }
  }

  lemma PushPullLegsWeekdays(s: Split, duration: string, hasGym: bool)
    requires s.IsPushPullLegs()
    ensures WeekdaysAscending(Schedule(s, duration, hasGym))
  {
  }

  lemma FatLossWeekdays(s: Split, duration: string, hasGym: bool)
    requires s.IsFatLoss()
    ensures WeekdaysAscending(Schedule(s, duration, hasGym))
  {
  }

  lemma GentleWeekdays(s: Split, duration: string, hasGym: bool)
    requires s.IsGentle()
    ensures WeekdaysAscending(Schedule(s, duration, hasGym))
  {
  }

  /** Every rotation runs forward through the week without repeating a day. */
  lemma ScheduleWeekdays(s: Split, duration: string, hasGym: bool)
    ensures WeekdaysAscending(Schedule(s, duration, hasGym))
  {
    if s.IsPushPullLegs() {
      PushPullLegsWeekdays(s, duration, hasGym);
    } else if s.IsFatLoss() {
      FatLossWeekdays(s, duration, hasGym);
    } else {
      GentleWeekdays(s, duration, hasGym);
    }
  }

  /** The gym and the home variant of a rotation share their schedule. */
  lemma ScheduleIgnoresGym(s: Split, duration: string)
    ensures SameSchedule(Schedule(s, duration, true), Schedule(s, duration, false))
  {
    if s.IsPushPullLegs() {
      PushPullLegsIgnoresGym(s, duration);
    } else if s.IsFatLoss() {
      FatLossIgnoresGym(s, duration);
    } else {
      GentleIgnoresGym(s, duration);
    }
  }

  lemma PushPullLegsIgnoresGym(s: Split, duration: string)
    requires s.IsPushPullLegs()
    ensures SameSchedule(Schedule(s, duration, true), Schedule(s, duration, false))
  {
  }

  lemma FatLossIgnoresGym(s: Split, duration: string)
    requires s.IsFatLoss()
    ensures SameSchedule(Schedule(s, duration, true), Schedule(s, duration, false))
  {
  }

  lemma GentleIgnoresGym(s: Split, duration: string)
    requires s.IsGentle()
    ensures SameSchedule(Schedule(s, duration, true), Schedule(s, duration, false))
  {
  }

  // ---------------------------------------------------------------------------
  // The decision table.

  /** The push/pull/legs rotations are picked exactly when the branch
      condition holds, the fat-loss ones exactly for the remaining lose-fat
      answers, and the rotation's length is the one the frequency tier names. */
  lemma SelectSplitTable(goal: string, experience: string, days: int)
    ensures var s := SelectSplit(goal, experience, days);
      var ppl := QualifiesForPushPullLegs(goal, experience, days);
      && (s.IsPushPullLegs() <==> ppl)
      && (s.IsFatLoss() <==> (!ppl && goal == "lose-fat"))
      && s.Length() == ExpectedLength(ppl, days)
  {
  }

  /** Any answer that spells a whole number (possibly followed by text that is
      not a digit) trains that many days, except that zero falls back to 3. */
  lemma DaysPerWeekReadsNumber(n: int, rest: string)
    requires EndsNumber(n, rest)
    ensures DaysPerWeek(DecimalString(n) + rest) == if n == 0 then 3 else n
  {
    DecimalStringParses(n, rest);
  }

  /** An unanswered frequency counts as three days. */
  lemma DaysPerWeekUnanswered(frequency: string)
    requires frequency == ""
    ensures DaysPerWeek(frequency) == 3
  {
  }

  // ---------------------------------------------------------------------------
  // Properties of generateWorkoutPlan.

  /** The branch conditions: push/pull/legs exactly for intermediate or
      advanced build-muscle users with at least three days, sized 6/4/3 by
      the `>= 6`, `>= 4` tiers; every other plan sized 5/4/2/3. */
  lemma PlanLength(q: QuizData)
    ensures var d := DaysPerWeek(q.frequency);
      |GenerateWorkoutPlan(q)| == ExpectedLength(QualifiesForPushPullLegs(q.goal, q.experience, d), d)
  {
    ScheduleShape(PlanSplit(q), q.duration, q.training == "gym");
    SelectSplitTable(q.goal, q.experience, DaysPerWeek(q.frequency));
  }

  /** Each day names the lists of its own position, in the gym variant
      exactly when the training answer is the string "gym". */
  lemma GymVariantChosen(q: QuizData)
    ensures var plan := GenerateWorkoutPlan(q);
      forall i :: 0 <= i < |plan| ==>
        plan[i].lists.slot == i && (plan[i].lists.hasGym <==> q.training == "gym")
  {
    ScheduleShape(PlanSplit(q), q.duration, q.training == "gym");
  }

  /** A plan opens with a push day exactly when the push/pull/legs branch fires. */
  lemma PushPullLegsExactly(q: QuizData)
    ensures var plan := GenerateWorkoutPlan(q);
      |plan| > 0 && (plan[0].dayType == PushDay <==> QualifiesForPushPullLegs(q.goal, q.experience, DaysPerWeek(q.frequency)))
  {
    ScheduleShape(PlanSplit(q), q.duration, q.training == "gym");
    ScheduleFirstDay(PlanSplit(q), q.duration, q.training == "gym");
    SelectSplitTable(q.goal, q.experience, DaysPerWeek(q.frequency));
  }

  /** The rotations with a rest day are picked exactly for push/pull/legs
      users with four or more days. */
  lemma RestRotationsSelected(goal: string, experience: string, days: int)
    ensures var s := SelectSplit(goal, experience, days);
      (s == PushPullLegs6 || s == PushPullLegs4) <==> (QualifiesForPushPullLegs(goal, experience, days) && days >= 4)
  {
    SelectSplitTable(goal, experience, days);
  }

  /** Exactly the six- and four-day push/pull/legs plans hold a "REST DAY",
      once, as the Thursday at index 3 with duration "Active Recovery"; every
      other day carries the user's session length. */
  lemma RestDayPlacement(q: QuizData)
    ensures var plan := GenerateWorkoutPlan(q);
      var d := DaysPerWeek(q.frequency);
      forall i :: 0 <= i < |plan| ==>
        && (plan[i].dayType == RestDay <==> (QualifiesForPushPullLegs(q.goal, q.experience, d) && d >= 4 && i == 3))
        && (plan[i].dayType == RestDay ==> plan[i].day == Thursday && plan[i].duration == RecoveryDuration)
        && (plan[i].dayType != RestDay ==> plan[i].duration == q.duration)
  {
    RestRotationsSelected(q.goal, q.experience, DaysPerWeek(q.frequency));
    ScheduleRestDays(PlanSplit(q), q.duration, q.training == "gym");
  }

  /** Every day's warm-up is the one its type calls for. */
  lemma WarmupMatchesDayType(q: QuizData)
    ensures var plan := GenerateWorkoutPlan(q);
      WarmupsFit(plan)
  {
    ScheduleWarmups(PlanSplit(q), q.duration, q.training == "gym");
  }

  /** The days of every plan run forward through the week without repeats. */
  lemma PlanWeekdaysAscending(q: QuizData)
    ensures WeekdaysAscending(GenerateWorkoutPlan(q))
  {
    ScheduleWeekdays(PlanSplit(q), q.duration, q.training == "gym");
  }

  /** Training access never changes the schedule (days, types, durations,
      warm-ups), only the exercise and substitute lists. */
  lemma TrainingOnlyChangesLists(q: QuizData, training: string)
    ensures SameSchedule(GenerateWorkoutPlan(q), GenerateWorkoutPlan(q.(training := training)))
  {
    var s := PlanSplit(q);
    assert PlanSplit(q.(training := training)) == s;
    ScheduleIgnoresGym(s, q.duration);
    if (q.training == "gym") != (training == "gym") {
      var a, b := Schedule(s, q.duration, true), Schedule(s, q.duration, false);
      assert SameSchedule(b, a);
    }
  }

  /** "home-equipment", "bodyweight" and any other non-gym answer give the same plan. */
  lemma NonGymAnswersAgree(q: QuizData, training: string)
    requires q.training != "gym" && training != "gym"
    ensures GenerateWorkoutPlan(q) == GenerateWorkoutPlan(q.(training := training))
  {
    assert PlanSplit(q.(training := training)) == PlanSplit(q);
  }

  /** Scenario: an advanced build-muscle user with a gym training six or more
      days a week gets the six-day push/pull/legs rotation with its gym lists:
      push, pull, legs, rest, push, pull. */
  lemma AdvancedGymSixDays(q: QuizData, n: nat)
    requires q.goal == "build-muscle" && q.experience == "advanced"
    requires q.training == "gym" && q.frequency == NatString(n) && n >= 6
    ensures var plan := GenerateWorkoutPlan(q);
      && |plan| == 6
      && (forall i :: 0 <= i < 6 ==> plan[i].lists == ListKey(PushPullLegs6, i, true))
      && plan[0].dayType == PushDay && plan[1].dayType == PullDay && plan[2].dayType == LegsDay
      && plan[3].dayType == RestDay && plan[4].dayType == PushDay && plan[5].dayType == PullDay
  {
    NatStringParses(n, "");
    assert NatString(n) + "" == q.frequency;
    assert PlanSplit(q) == PushPullLegs6;
  }

  /** The repeated days of the six-day rotation are different workouts: the
      second push day (position 4) differs from the first (position 0), and
      the second pull day (position 5) from the first (position 1), in both
      the gym and the home variant. */
  lemma SixDayRepeatsDiffer(hasGym: bool)
    ensures PushPullLegsSixLists(0, hasGym).exercises != PushPullLegsSixLists(4, hasGym).exercises
    ensures PushPullLegsSixLists(1, hasGym).exercises != PushPullLegsSixLists(5, hasGym).exercises
  {
    SixDayPushDaysDiffer(hasGym);
    SixDayPullDaysDiffer(hasGym);
  }

  lemma SixDayPushDaysDiffer(hasGym: bool)
    ensures SixDayPushLists(hasGym).exercises != SixDaySecondPushLists(hasGym).exercises
  {
    if hasGym {
      assert |SixDayPushLists(true).exercises[0]| != |SixDaySecondPushLists(true).exercises[0]|;
    } else {
      assert |SixDayPushLists(false).exercises[0]| != |SixDaySecondPushLists(false).exercises[0]|;
    }
  }

  lemma SixDayPullDaysDiffer(hasGym: bool)
    ensures SixDayPullLists(hasGym).exercises != SixDaySecondPullLists(hasGym).exercises
  {
    if hasGym {
      assert |SixDayPullLists(true).exercises[0]| != |SixDaySecondPullLists(true).exercises[0]|;
    } else {
      assert |SixDayPullLists(false).exercises[0]| != |SixDaySecondPullLists(false).exercises[0]|;
    }
  }
}

=== FILE: workout_templates.dfy ===
/**
 * The fixed workout rotations of the plan generator. A rotation is a schedule
 * of days (weekday, day type, session length, warm-up) together with, for each
 * day, an exercise list and a substitute list. The schedule is kept apart from
 * the list text: a scheduled day names its lists by a key (rotation, position
 * in the rotation, gym or not), and `Lists` gives the transcribed text.
 */
module WorkoutTemplates {

  datatype Weekday = Monday | Tuesday | Wednesday | Thursday | Friday | Saturday | Sunday
  {
    /** Position in the week, Monday first. */
    function Index(): nat {
      match this
      case Monday => 0
      case Tuesday => 1
      case Wednesday => 2
      case Thursday => 3
      case Friday => 4
      case Saturday => 5
      case Sunday => 6
    }

    function Name(): string {
      match this
      case Monday => "Monday"
      case Tuesday => "Tuesday"
      case Wednesday => "Wednesday"
      case Thursday => "Thursday"
      case Friday => "Friday"
      case Saturday => "Saturday"
      case Sunday => "Sunday"
    }
  }

  /** The `type` label of a day; `Label` is the text the plan shows. */
  datatype DayType =
    | PushDay | PullDay | LegsDay | RestDay
    | FullBodyHiit | UpperBodyStrength | CardioCore | LowerBodyStrength | FullBodyCircuit
    | UpperBody | LowerBody | StrengthCardio | StrengthCircuit
    | TotalBody | CardioFlow | StrengthMobility | ActiveRecovery | FunMovement
    | ActiveFun | TotalBodyGentle | CardioMobility
  {
    function Label(): string {
      match this
      case PushDay => "Push (Chest, Shoulders, Triceps)"
      case PullDay => "Pull (Back, Biceps)"
      case LegsDay => "Legs (Quads, Hamstrings, Glutes, Calves)"
      case RestDay => "REST DAY"
      case FullBodyHiit => "Full Body HIIT"
      case UpperBodyStrength => "Upper Body Strength"
      case CardioCore => "Cardio + Core"
      case LowerBodyStrength => "Lower Body Strength"
      case FullBodyCircuit => "Full Body Circuit"
      case UpperBody => "Upper Body"
      case LowerBody => "Lower Body"
      case StrengthCardio => "Strength + Cardio"
      case StrengthCircuit => "Strength Circuit"
      case TotalBody => "Total Body"
      case CardioFlow => "Cardio Flow"
      case StrengthMobility => "Strength & Mobility"
      case ActiveRecovery => "Active Recovery"
      case FunMovement => "Fun Movement"
      case ActiveFun => "Active Fun"
      case TotalBodyGentle => "Total Body Gentle"
      case CardioMobility => "Cardio & Mobility"
    }
  }

  /** The five warm-up routines; `Steps` is the routine's text. */
  datatype WarmUp = GeneralWarmUp | HiitWarmUp | StrengthWarmUp | GentleWarmUp | RecoveryWarmUp
  {
    function Steps(): seq<string> {
      match this
      case GeneralWarmUp =>
        [
          "Light walking - 3 minutes",
          "Arm circles - 10 each direction",
          "Leg swings - 10 each leg",
          "Bodyweight squats - 10 reps",
          "Shoulder rolls - 10 each direction"
        ]
      case HiitWarmUp =>
        [
          "Light jogging in place - 2 minutes",
          "Jumping jacks - 20 reps",
          "High knees - 20 reps",
          "Butt kicks - 20 reps",
          "Arm swings - 10 each direction"
        ]
      case StrengthWarmUp =>
        [
          "Light walking - 3 minutes",
          "Arm circles - 10 each direction",
          "Bodyweight squats - 10 reps",
          "Push-up to downward dog - 5 reps",
          "Hip circles - 10 each direction"
        ]
      case GentleWarmUp =>
        [
          "Gentle walking - 5 minutes",
          "Arm circles - 5 each direction",
          "Neck rolls - 5 each direction",
          "Gentle stretching - 5 minutes"
        ]
      case RecoveryWarmUp =>
        ["Light walking - 10 minutes", "Gentle stretching - 10 minutes"]
    }
  }

  /** The eleven rotations: push/pull/legs (build-muscle, intermediate or
      advanced), fat-loss (lose-fat) and gentle (everything else), each in the
      lengths the frequency tiers give. */
  datatype Split =
    | PushPullLegs6 | PushPullLegs4 | PushPullLegs3
    | FatLoss5 | FatLoss4 | FatLoss2 | FatLoss3
    | Gentle5 | Gentle4 | Gentle2 | Gentle3
  {
    predicate IsPushPullLegs() {
      PushPullLegs6? || PushPullLegs4? || PushPullLegs3?
    }

    predicate IsFatLoss() {
      FatLoss5? || FatLoss4? || FatLoss2? || FatLoss3?
    }

    predicate IsGentle() {
      Gentle5? || Gentle4? || Gentle2? || Gentle3?
    }

    /** How many days the rotation schedules. */
    function Length(): nat {
      match this
      case PushPullLegs6 => 6
      case PushPullLegs4 => 4
      case PushPullLegs3 => 3
      case FatLoss5 => 5
      case FatLoss4 => 4
      case FatLoss2 => 2
      case FatLoss3 => 3
      case Gentle5 => 5
      case Gentle4 => 4
      case Gentle2 => 2
      case Gentle3 => 3
    }
  }

  /** Names the exercise and substitute lists of one day: the rotation, the
      day's position in it, and whether the gym variant applies. */
  datatype ListKey = ListKey(split: Split, slot: nat, hasGym: bool)

  /** One scheduled day. */
  datatype WorkoutDay = WorkoutDay(
    day: Weekday,
    dayType: DayType,
    duration: string,
    warmup: WarmUp,
    lists: ListKey)

  /** A day's exercise list and substitute list. Every day of every rotation
      fills in both, so neither is optional here. */
  datatype DayLists = DayLists(exercises: seq<string>, substitutes: seq<string>)

  /** The session length shown on the rest day instead of the user's answer. */
  const RecoveryDuration := "Active Recovery"

  /** The schedule of a rotation: every training day carries the user's
      session length; the Thursday rest day carries `RecoveryDuration`. */
  function Schedule(s: Split, duration: string, hasGym: bool): seq<WorkoutDay> {
    match s
    // lines 155-299: push, pull, legs, rest, push, pull
    case PushPullLegs6 => [
      WorkoutDay(Monday, PushDay, duration, StrengthWarmUp, ListKey(s, 0, hasGym)),
      WorkoutDay(Tuesday, PullDay, duration, StrengthWarmUp, ListKey(s, 1, hasGym)),
      WorkoutDay(Wednesday, LegsDay, duration, StrengthWarmUp, ListKey(s, 2, hasGym)),
      WorkoutDay(Thursday, RestDay, RecoveryDuration, RecoveryWarmUp, ListKey(s, 3, hasGym)),
      WorkoutDay(Friday, PushDay, duration, StrengthWarmUp, ListKey(s, 4, hasGym)),
      WorkoutDay(Saturday, PullDay, duration, StrengthWarmUp, ListKey(s, 5, hasGym))]
    // lines 300-394: push, pull, legs, rest
    case PushPullLegs4 => [
      WorkoutDay(Monday, PushDay, duration, StrengthWarmUp, ListKey(s, 0, hasGym)),
      WorkoutDay(Tuesday, PullDay, duration, StrengthWarmUp, ListKey(s, 1, hasGym)),
      WorkoutDay(Wednesday, LegsDay, duration, StrengthWarmUp, ListKey(s, 2, hasGym)),
      WorkoutDay(Thursday, RestDay, RecoveryDuration, RecoveryWarmUp, ListKey(s, 3, hasGym))]
    // lines 395-476: push Monday, pull Wednesday, legs Friday
    case PushPullLegs3 => [
      WorkoutDay(Monday, PushDay, duration, StrengthWarmUp, ListKey(s, 0, hasGym)),
      WorkoutDay(Wednesday, PullDay, duration, StrengthWarmUp, ListKey(s, 1, hasGym)),
      WorkoutDay(Friday, LegsDay, duration, StrengthWarmUp, ListKey(s, 2, hasGym))]
    // lines 480-555
    case FatLoss5 => [
      WorkoutDay(Monday, FullBodyHiit, duration, HiitWarmUp, ListKey(s, 0, hasGym)),
      WorkoutDay(Tuesday, UpperBodyStrength, duration, StrengthWarmUp, ListKey(s, 1, hasGym)),
      WorkoutDay(Wednesday, CardioCore, duration, GeneralWarmUp, ListKey(s, 2, hasGym)),
      WorkoutDay(Thursday, LowerBodyStrength, duration, StrengthWarmUp, ListKey(s, 3, hasGym)),
      WorkoutDay(Friday, FullBodyCircuit, duration, HiitWarmUp, ListKey(s, 4, hasGym))]
    // lines 556-611
    case FatLoss4 => [
      WorkoutDay(Monday, FullBodyHiit, duration, HiitWarmUp, ListKey(s, 0, hasGym)),
      WorkoutDay(Tuesday, UpperBody, duration, StrengthWarmUp, ListKey(s, 1, hasGym)),
      WorkoutDay(Thursday, LowerBody, duration, StrengthWarmUp, ListKey(s, 2, hasGym)),
      WorkoutDay(Friday, CardioCore, duration, GeneralWarmUp, ListKey(s, 3, hasGym))]
    // lines 612-664
    case FatLoss2 => [
      WorkoutDay(Monday, FullBodyHiit, duration, HiitWarmUp, ListKey(s, 0, hasGym)),
      WorkoutDay(Thursday, StrengthCardio, duration, StrengthWarmUp, ListKey(s, 1, hasGym))]
    // lines 665-709
    case FatLoss3 => [
      WorkoutDay(Monday, FullBodyHiit, duration, HiitWarmUp, ListKey(s, 0, hasGym)),
      WorkoutDay(Wednesday, StrengthCircuit, duration, StrengthWarmUp, ListKey(s, 1, hasGym)),
      WorkoutDay(Friday, CardioCore, duration, GeneralWarmUp, ListKey(s, 2, hasGym))]
    // lines 720-776
    case Gentle5 => [
      WorkoutDay(Monday, TotalBody, duration, GentleWarmUp, ListKey(s, 0, hasGym)),
      WorkoutDay(Tuesday, CardioFlow, duration, GentleWarmUp, ListKey(s, 1, hasGym)),
      WorkoutDay(Wednesday, StrengthMobility, duration, GentleWarmUp, ListKey(s, 2, hasGym)),
      WorkoutDay(Thursday, ActiveRecovery, duration, GentleWarmUp, ListKey(s, 3, hasGym)),
      WorkoutDay(Friday, FunMovement, duration, GentleWarmUp, ListKey(s, 4, hasGym))]
    // lines 777-824
    case Gentle4 => [
      WorkoutDay(Monday, TotalBody, duration, GentleWarmUp, ListKey(s, 0, hasGym)),
      WorkoutDay(Tuesday, CardioFlow, duration, GentleWarmUp, ListKey(s, 1, hasGym)),
      WorkoutDay(Thursday, StrengthMobility, duration, GentleWarmUp, ListKey(s, 2, hasGym)),
      WorkoutDay(Friday, ActiveFun, duration, GentleWarmUp, ListKey(s, 3, hasGym))]
    // lines 825-882
    case Gentle2 => [
      WorkoutDay(Monday, TotalBodyGentle, duration, GentleWarmUp, ListKey(s, 0, hasGym)),
      WorkoutDay(Thursday, CardioMobility, duration, GentleWarmUp, ListKey(s, 1, hasGym))]
    // lines 883-923
    case Gentle3 => [
      WorkoutDay(Monday, TotalBody, duration, GentleWarmUp, ListKey(s, 0, hasGym)),
      WorkoutDay(Wednesday, CardioFlow, duration, GentleWarmUp, ListKey(s, 1, hasGym)),
      WorkoutDay(Friday, StrengthMobility, duration, GentleWarmUp, ListKey(s, 2, hasGym))]
  }

  /** The list for a gym user or the list for everybody else. */
  function Variant(hasGym: bool, gym: seq<string>, other: seq<string>): seq<string> {
    if hasGym then gym else other
  }

  /** The lists a key names. The per-rotation lookups below answer their last
      day for every position from the last one on; only the rotation's own
      positions are admitted here. */
  function Lists(k: ListKey): DayLists
    requires k.slot < k.split.Length()
  {
    match k.split
    case PushPullLegs6 => PushPullLegsSixLists(k.slot, k.hasGym)
    case PushPullLegs4 => PushPullLegsFourLists(k.slot, k.hasGym)
    case PushPullLegs3 => PushPullLegsThreeLists(k.slot, k.hasGym)
    case FatLoss5 => FatLossFiveLists(k.slot, k.hasGym)
    case FatLoss4 => FatLossFourLists(k.slot, k.hasGym)
    case FatLoss2 => FatLossTwoLists(k.slot, k.hasGym)
    case FatLoss3 => FatLossThreeLists(k.slot, k.hasGym)
    case Gentle5 => GentleFiveLists(k.slot, k.hasGym)
    case Gentle4 => GentleFourLists(k.slot, k.hasGym)
    case Gentle2 => GentleTwoLists(k.slot, k.hasGym)
    case Gentle3 => GentleThreeLists(k.slot, k.hasGym)
  }

  // ---------------------------------------------------------------------------
  // Push/pull/legs lists.

  /** The rest day of the six- and four-day splits (lines 234-246). */
  function RestDayLists(): DayLists {
    DayLists(
      [
        "Light walking - 20-30 minutes",
        "Gentle yoga or stretching - 15 minutes",
        "Foam rolling - 10 minutes",
        "Hydration and nutrition focus"
      ],
      ["Complete rest if needed", "Light mobility work", "Meditation"])
  }

  /** The legs day shared by all three splits. */
  function LegsLists(hasGym: bool): DayLists {
    DayLists(
      Variant(hasGym,
        [
          "Squats - 4x6-8",
          "Romanian Deadlifts - 4x6-8",
          "Leg Press - 3x10-12",
          "Walking Lunges - 3x12 each leg",
          "Leg Curls - 3x10-12",
          "Calf Raises - 4x15-20"
        ],
        [
          "Bodyweight Squats - 4x15-20",
          "Single-leg Deadlifts - 4x8-10 each",
          "Jump Squats - 3x10-15",
          "Lunges - 3x12 each leg",
          "Glute Bridges - 3x15-20",
          "Calf Raises - 4x20-25"
        ]),
      Variant(hasGym,
        ["Goblet Squats", "Stiff-leg Deadlifts", "Bulgarian Split Squats"],
        ["Wall Sit", "Step-ups", "Single-leg Glute Bridges"]))
  }

  /** The exercises of the first pull day of every split. */
  function PullExercises(hasGym: bool): seq<string> {
    Variant(hasGym,
      [
        "Pull-ups/Lat Pulldowns - 4x6-10",
        "Bent-over Rows - 4x6-8",
        "Cable Rows - 3x8-10",
        "Face Pulls - 3x12-15",
        "Barbell Curls - 3x8-12",
        "Hammer Curls - 3x10-12"
      ],
      [
        "Pull-ups/Chin-ups - 4x5-10",
        "Superman - 4x12-15",
        "Reverse Flies - 3x12-15",
        "Pike Walks - 3x8-10",
        "Towel Curls - 3x10-15",
        "Band Pull-aparts - 3x15-20"
      ])
  }

  /** The push day of the four- and three-day splits. */
  function ShortSplitPushLists(hasGym: bool): DayLists {
    DayLists(
      Variant(hasGym,
        [
          "Bench Press - 4x6-8",
          "Shoulder Press - 4x6-8",
          "Incline Dumbbell Press - 3x8-10",
          "Lateral Raises - 3x12-15",
          "Close-grip Bench Press - 3x8-10",
          "Tricep Dips - 3x10-12"
        ],
        [
          "Push-ups - 4x12-15",
          "Pike Push-ups - 4x8-12",
          "Incline Push-ups - 3x10-15",
          "Arm Circles - 3x15-20",
          "Diamond Push-ups - 3x8-12",
          "Tricep Dips - 3x12-15"
        ]),
      Variant(hasGym,
        ["Dumbbell Press", "Machine alternatives", "Cable exercises"],
        ["Wall Push-ups", "Knee Push-ups", "Chair Dips"]))
  }

  /** The pull day of the four- and three-day splits. */
  function ShortSplitPullLists(hasGym: bool): DayLists {
    DayLists(
      PullExercises(hasGym),
      Variant(hasGym,
        ["Assisted Pull-ups", "Machine Rows", "Dumbbell alternatives"],
        ["Assisted Pull-ups", "Modified Superman", "Wall Angels"]))
  }

  function SixDayPushLists(hasGym: bool): DayLists {
    DayLists(
      Variant(hasGym,
        [
          "Bench Press - 4x6-8",
          "Shoulder Press - 3x8-10",
          "Incline Dumbbell Press - 3x8-10",
          "Lateral Raises - 3x12-15",
          "Tricep Dips - 3x10-12",
          "Close-grip Bench Press - 3x8-10"
        ],
        [
          "Push-ups - 4x10-15",
          "Pike Push-ups - 3x8-12",
          "Incline Push-ups - 3x10-15",
          "Arm Circles - 3x15-20",
          "Tricep Dips - 3x10-15",
          "Diamond Push-ups - 3x8-12"
        ]),
      Variant(hasGym,
        ["Dumbbell Press instead of Barbell", "Machine Press alternatives", "Cable exercises"],
        ["Wall Push-ups for beginners", "Knee Push-ups", "Chair Dips"]))
  }

  function SixDayPullLists(hasGym: bool): DayLists {
    DayLists(
      PullExercises(hasGym),
      Variant(hasGym,
        ["Assisted Pull-ups", "Machine Rows", "Dumbbell alternatives"],
        ["Assisted Pull-ups with band", "Modified Superman", "Wall Angels"]))
  }

  function SixDaySecondPushLists(hasGym: bool): DayLists {
    DayLists(
      Variant(hasGym,
        [
          "Incline Barbell Press - 4x6-8",
          "Dumbbell Shoulder Press - 3x8-10",
          "Decline Press - 3x8-10",
          "Cable Lateral Raises - 3x12-15",
          "Overhead Tricep Extension - 3x10-12",
          "Tricep Pushdowns - 3x10-12"
        ],
        [
          "Incline Push-ups - 4x10-15",
          "Handstand Progression - 3x30-60sec",
          "Decline Push-ups - 3x8-12",
          "Pike Push-ups - 3x8-12",
          "Tricep Dips - 3x12-15",
          "Diamond Push-ups - 3x10-12"
        ]),
      Variant(hasGym,
        ["Dumbbell alternatives", "Machine variations", "Bodyweight options"],
        ["Regular Push-ups", "Wall Handstand", "Chair Dips"]))
  }

  function SixDaySecondPullLists(hasGym: bool): DayLists {
    DayLists(
      Variant(hasGym,
        [
          "Deadlifts - 4x5-6",
          "T-Bar Rows - 4x6-8",
          "Wide-grip Pulldowns - 3x8-10",
          "Shrugs - 3x10-12",
          "Preacher Curls - 3x8-12",
          "Cable Curls - 3x10-12"
        ],
        [
          "Single-leg Deadlifts - 4x6-8 each",
          "Wide-grip Pull-ups - 4x5-8",
          "Reverse Flies - 3x12-15",
          "Superman - 3x12-15",
          "Chin-ups - 3x5-10",
          "Towel Curls - 3x12-15"
        ]),
      Variant(hasGym,
        ["Romanian Deadlifts", "Cable Rows", "Machine alternatives"],
        ["Regular Deadlift motion", "Assisted Pull-ups", "Band exercises"]))
  }

  function PushPullLegsSixLists(slot: nat, hasGym: bool): DayLists
  {
    if slot == 0 then SixDayPushLists(hasGym)
    else if slot == 1 then SixDayPullLists(hasGym)
    else if slot == 2 then LegsLists(hasGym)
    else if slot == 3 then RestDayLists()
    else if slot == 4 then SixDaySecondPushLists(hasGym)
    else SixDaySecondPullLists(hasGym)
  }

  function PushPullLegsFourLists(slot: nat, hasGym: bool): DayLists
  {
    if slot == 0 then ShortSplitPushLists(hasGym)
    else if slot == 1 then ShortSplitPullLists(hasGym)
    else if slot == 2 then LegsLists(hasGym)
    else RestDayLists()
  }

  function PushPullLegsThreeLists(slot: nat, hasGym: bool): DayLists
  {
    if slot == 0 then ShortSplitPushLists(hasGym)
    else if slot == 1 then ShortSplitPullLists(hasGym)
    else LegsLists(hasGym)
  }

  // ---------------------------------------------------------------------------
  // Fat-loss lists.

  function FatLossHiitGym(): seq<string> {
    [
      "Treadmill Intervals - 20 min",
      "Kettlebell Swings - 3x15",
      "Burpees - 3x10",
      "Mountain Climbers - 3x20"
    ]
  }
  function FatLossHiitHome(): seq<string> {
    ["Jumping Jacks - 3x30", "Burpees - 3x8", "High Knees - 3x20", "Push-ups - 3x10"]
  }
  function FatLossUpperGym(): seq<string> {
    ["Bench Press - 3x8", "Pull-ups - 3xMax", "Shoulder Press - 3x10", "Rows - 3x12"]
  }
  function FatLossUpperHome(): seq<string> {
    ["Push-ups - 3x12", "Pike Push-ups - 3x10", "Tricep Dips - 3x15", "Superman - 3x15"]
  }
  function FatLossLowerGym(): seq<string> {
    ["Squats - 3x12", "Deadlifts - 1x5", "Lunges - 3x10", "Calf Raises - 3x15"]
  }
  function FatLossLowerHome(): seq<string> {
    ["Squats - 3x15", "Single-leg Deadlifts - 3x10", "Lunges - 3x12", "Glute Bridges - 3x15"]
  }
  function CardioCoreGym(): seq<string> {
    ["Bike Intervals - 15 min", "Plank Variations - 3x30 sec", "Russian Twists - 3x20", "Leg Raises - 3x15"]
  }
  function CardioCoreHome(): seq<string> {
    ["Jump Rope - 3x1 min", "Plank Hold - 3x30 sec", "Bicycle Crunches - 3x20", "Wall Sit - 3x30 sec"]
  }

  function FatLossFiveHiitLists(hasGym: bool): DayLists {
    DayLists(
      Variant(hasGym, FatLossHiitGym(), FatLossHiitHome()),
      Variant(hasGym,
        [
          "Bike Intervals instead of Treadmill",
          "Dumbbell Swings instead of Kettlebell",
          "Step-ups instead of Burpees"
        ],
        [
          "Marching in place instead of Jumping Jacks",
          "Modified Burpees (no jump)",
          "Wall Push-ups instead of regular"
        ]))
  }

  function FatLossFiveUpperLists(hasGym: bool): DayLists {
    DayLists(
      Variant(hasGym, FatLossUpperGym(), FatLossUpperHome()),
      Variant(hasGym,
        ["Dumbbell Press instead of Bench", "Assisted Pull-ups", "Dumbbell Shoulder Press"],
        ["Wall Push-ups", "Wall Handstand instead of Pike Push-ups", "Chair Dips"]))
  }

  function FatLossFiveCardioLists(hasGym: bool): DayLists {
    DayLists(
      Variant(hasGym, CardioCoreGym(), CardioCoreHome()),
      Variant(hasGym,
        ["Walking instead of Bike", "Modified Plank on knees", "Crunches instead of Russian Twists"],
        ["Marching in place instead of Jump Rope", "Modified Plank on knees", "Regular Crunches"]))
  }

  function FatLossFiveLowerLists(hasGym: bool): DayLists {
    DayLists(
      Variant(hasGym, FatLossLowerGym(), FatLossLowerHome()),
      Variant(hasGym,
        ["Goblet Squats", "Romanian Deadlifts", "Step-ups instead of Lunges"],
        ["Wall Sit instead of Squats", "Regular Deadlift motion", "Step-ups"]))
  }

  function FatLossFiveCircuitLists(hasGym: bool): DayLists {
    DayLists(
      Variant(hasGym,
        ["Clean & Press - 3x8", "Thrusters - 3x10", "Pull-ups - 3xMax", "Squats - 3x12"],
        ["Burpees - 3x10", "Push-ups - 3x12", "Jump Squats - 3x15", "Plank - 3x30 sec"]),
      Variant(hasGym,
        ["Dumbbell Clean & Press", "Dumbbell Thrusters", "Assisted Pull-ups"],
        ["Modified Burpees", "Wall Push-ups", "Regular Squats instead of Jump"]))
  }

  function FatLossFiveLists(slot: nat, hasGym: bool): DayLists
  {
    if slot == 0 then FatLossFiveHiitLists(hasGym)
    else if slot == 1 then FatLossFiveUpperLists(hasGym)
    else if slot == 2 then FatLossFiveCardioLists(hasGym)
    else if slot == 3 then FatLossFiveLowerLists(hasGym)
    else FatLossFiveCircuitLists(hasGym)
  }

  function FatLossFourHiitLists(hasGym: bool): DayLists {
    DayLists(
      Variant(hasGym, FatLossHiitGym(), FatLossHiitHome()),
      Variant(hasGym,
        ["Bike Intervals", "Dumbbell Swings", "Step-ups instead of Burpees"],
        ["Marching in place", "Modified Burpees", "Wall Push-ups"]))
  }

  function FatLossFourUpperLists(hasGym: bool): DayLists {
    DayLists(
      Variant(hasGym, FatLossUpperGym(), FatLossUpperHome()),
      Variant(hasGym,
        ["Dumbbell Press", "Assisted Pull-ups", "Dumbbell Shoulder Press"],
        ["Wall Push-ups", "Wall Handstand", "Chair Dips"]))
  }

  function FatLossFourLowerLists(hasGym: bool): DayLists {
    DayLists(
      Variant(hasGym, FatLossLowerGym(), FatLossLowerHome()),
      Variant(hasGym,
        ["Goblet Squats", "Romanian Deadlifts", "Step-ups"],
        ["Wall Sit", "Regular Deadlift motion", "Step-ups"]))
  }

  function FatLossFourCardioLists(hasGym: bool): DayLists {
    DayLists(
      Variant(hasGym, CardioCoreGym(), CardioCoreHome()),
      Variant(hasGym,
        ["Walking", "Modified Plank on knees", "Regular Crunches"],
        ["Marching in place", "Modified Plank on knees", "Regular Crunches"]))
  }

  function FatLossFourLists(slot: nat, hasGym: bool): DayLists
  {
    if slot == 0 then FatLossFourHiitLists(hasGym)
    else if slot == 1 then FatLossFourUpperLists(hasGym)
    else if slot == 2 then FatLossFourLowerLists(hasGym)
    else FatLossFourCardioLists(hasGym)
  }

  /** Two days with lengthened lists. */
  function FatLossTwoHiitLists(hasGym: bool): DayLists {
    DayLists(
      Variant(hasGym,
        FatLossHiitGym() + ["Squats - 3x12", "Push-ups - 3x12"],
        FatLossHiitHome() + ["Squats - 3x15", "Lunges - 3x12"]),
      Variant(hasGym,
        ["Bike Intervals", "Dumbbell Swings", "Step-ups", "Goblet Squats", "Wall Push-ups"],
        ["Marching in place", "Modified Burpees", "Wall Push-ups", "Wall Sit", "Step-ups"]))
  }

  function FatLossTwoStrengthLists(hasGym: bool): DayLists {
    DayLists(
      Variant(hasGym,
        [
          "Deadlifts - 1x5",
          "Rows - 3x12",
          "Bike Intervals - 15 min",
          "Plank Variations - 3x30 sec",
          "Russian Twists - 3x20"
        ],
        [
          "Bodyweight Squats - 3x15",
          "Push-ups - 3x12",
          "Jump Rope - 3x1 min",
          "Plank Hold - 3x30 sec",
          "Bicycle Crunches - 3x20"
        ]),
      Variant(hasGym,
        ["Romanian Deadlifts", "One-arm Rows", "Walking", "Modified Plank", "Regular Crunches"],
        ["Wall Sit", "Wall Push-ups", "Marching in place", "Modified Plank", "Regular Crunches"]))
  }

  function FatLossTwoLists(slot: nat, hasGym: bool): DayLists
  {
    if slot == 0 then FatLossTwoHiitLists(hasGym)
    else FatLossTwoStrengthLists(hasGym)
  }

  function FatLossThreeHiitLists(hasGym: bool): DayLists {
    DayLists(
      Variant(hasGym, FatLossHiitGym(), FatLossHiitHome()),
      Variant(hasGym,
        ["Bike Intervals", "Dumbbell Swings", "Step-ups"],
        ["Marching in place", "Modified Burpees", "Wall Push-ups"]))
  }

  function FatLossThreeCircuitLists(hasGym: bool): DayLists {
    DayLists(
      Variant(hasGym,
        ["Squats - 3x12", "Deadlifts - 1x5", "Push-ups - 3x12", "Rows - 3x12"],
        ["Bodyweight Squats - 3x15", "Push-ups - 3x12", "Lunges - 3x12", "Plank - 3x30 sec"]),
      Variant(hasGym,
        ["Goblet Squats", "Romanian Deadlifts", "Wall Push-ups", "One-arm Rows"],
        ["Wall Sit", "Wall Push-ups", "Step-ups", "Modified Plank"]))
  }

  function FatLossThreeCardioLists(hasGym: bool): DayLists {
    DayLists(
      Variant(hasGym, CardioCoreGym(), CardioCoreHome()),
      Variant(hasGym,
        ["Walking", "Modified Plank", "Regular Crunches", "Knee Raises"],
        ["Marching in place", "Modified Plank", "Regular Crunches", "Standing Knee Raises"]))
  }

  function FatLossThreeLists(slot: nat, hasGym: bool): DayLists
  {
    if slot == 0 then FatLossThreeHiitLists(hasGym)
    else if slot == 1 then FatLossThreeCircuitLists(hasGym)
    else FatLossThreeCardioLists(hasGym)
  }

  // ---------------------------------------------------------------------------
  // Gentle lists.

  function GentleStrengthGym(): seq<string> {
    ["Light Weights - 3x10", "Stretching - 10 min", "Balance Work - 5 min", "Core - 10 min"]
  }
  function GentleStrengthHome(): seq<string> {
    ["Bodyweight - 3x10", "Yoga Flow - 20 min", "Balance - 5 min", "Gentle Core - 10 min"]
  }
  function GentleTotalBodyHome(): seq<string> {
    ["Bodyweight Squats - 3x12", "Wall Push-ups - 3x10", "Lunges - 3x10", "Modified Plank - 3x30 sec"]
  }

  /** The Cardio Flow day of the four- and three-day rotations; it has no gym variant. */
  function CardioFlowLists(): DayLists {
    DayLists(
      ["Walking - 30 min", "Stretching - 10 min", "Light Bodyweight - 3x10", "Breathing Exercises - 5 min"],
      ["Seated marching", "Chair stretches", "Chair exercises", "Seated breathing"])
  }

  /** The Strength & Mobility day of the four- and three-day rotations. */
  function StrengthMobilityLists(hasGym: bool): DayLists {
    DayLists(
      Variant(hasGym, GentleStrengthGym(), GentleStrengthHome()),
      Variant(hasGym,
        ["Resistance bands", "Chair stretches", "Wall-supported balance", "Seated core work"],
        ["Chair exercises", "Seated yoga", "Wall-supported balance", "Seated core work"]))
  }

  /** Five days; only the Wednesday has a gym variant. */
  function GentleFiveTotalBodyLists(): DayLists {
    DayLists(
      ["Walking - 30 min", "Light Bodyweight - 3x10", "Stretching - 10 min", "Balance Work - 5 min"],
      ["Chair exercises instead of standing", "Seated stretching", "Wall-supported balance work"])
  }

  function GentleFiveCardioFlowLists(): DayLists {
    DayLists(
      ["Walking - 30 min", "Stretching - 10 min", "Light Movement - 15 min", "Breathing Exercises - 5 min"],
      ["Seated marching instead of walking", "Chair stretches", "Seated breathing exercises"])
  }

  function GentleFiveStrengthLists(hasGym: bool): DayLists {
    DayLists(
      Variant(hasGym, GentleStrengthGym(), GentleStrengthHome()),
      Variant(hasGym,
        ["Resistance bands instead of weights", "Chair stretches", "Wall-supported balance"],
        ["Chair exercises", "Seated yoga", "Wall-supported balance"]))
  }

  function GentleFiveRecoveryLists(): DayLists {
    DayLists(
      ["Gentle Walking - 30 min", "Stretching - 15 min", "Meditation - 10 min", "Light Movement - 15 min"],
      ["Seated movement", "Chair stretches", "Guided meditation", "Gentle arm movements"])
  }

  function GentleFiveFunLists(): DayLists {
    DayLists(
      ["Dancing - 30 min", "Swimming - 30 min", "Hiking - 45 min", "Sports - 45 min"],
      ["Chair dancing", "Water walking", "Nature walks", "Gentle games"])
  }

  function GentleFiveLists(slot: nat, hasGym: bool): DayLists
  {
    if slot == 0 then GentleFiveTotalBodyLists()
    else if slot == 1 then GentleFiveCardioFlowLists()
    else if slot == 2 then GentleFiveStrengthLists(hasGym)
    else if slot == 3 then GentleFiveRecoveryLists()
    else GentleFiveFunLists()
  }

  function GentleFourTotalBodyLists(hasGym: bool): DayLists {
    DayLists(
      Variant(hasGym,
        ["Light Squats - 3x10", "Push-ups - 3x8", "Rows - 3x10", "Plank - 3x30 sec"],
        GentleTotalBodyHome()),
      Variant(hasGym,
        ["Chair squats", "Wall push-ups", "Resistance band rows", "Wall plank"],
        ["Chair squats", "Wall push-ups", "Step-ups", "Wall plank"]))
  }

  function GentleFourFunLists(): DayLists {
    DayLists(
      ["Dancing - 30 min", "Swimming - 30 min", "Hiking - 45 min", "Light Sports - 45 min"],
      ["Chair dancing", "Water walking", "Nature walks", "Gentle games"])
  }

  function GentleFourLists(slot: nat, hasGym: bool): DayLists
  {
    if slot == 0 then GentleFourTotalBodyLists(hasGym)
    else if slot == 1 then CardioFlowLists()
    else if slot == 2 then StrengthMobilityLists(hasGym)
    else GentleFourFunLists()
  }

  /** Two days with lengthened lists. */
  function GentleTwoTotalBodyLists(hasGym: bool): DayLists {
    DayLists(
      Variant(hasGym,
        [
          "Light Squats - 3x10",
          "Push-ups - 3x8",
          "Rows - 3x10",
          "Plank - 3x30 sec",
          "Walking - 20 min",
          "Stretching - 10 min"
        ],
        GentleTotalBodyHome() + ["Walking - 20 min", "Stretching - 10 min"]),
      Variant(hasGym,
        ["Chair squats", "Wall push-ups", "Resistance bands", "Wall plank", "Seated marching", "Chair stretches"],
        ["Chair squats", "Wall push-ups", "Step-ups", "Wall plank", "Seated marching", "Chair stretches"]))
  }

  function GentleTwoCardioLists(): DayLists {
    DayLists(
      [
        "Walking - 30 min",
        "Stretching - 10 min",
        "Light Movement - 15 min",
        "Breathing Exercises - 5 min",
        "Balance Work - 5 min",
        "Yoga Flow - 20 min"
      ],
      [
        "Seated marching",
        "Chair stretches",
        "Seated movements",
        "Seated breathing",
        "Wall-supported balance",
        "Seated yoga"
      ])
  }

  function GentleTwoLists(slot: nat, hasGym: bool): DayLists
  {
    if slot == 0 then GentleTwoTotalBodyLists(hasGym)
    else GentleTwoCardioLists()
  }

  function GentleThreeTotalBodyLists(hasGym: bool): DayLists {
    DayLists(
      Variant(hasGym,
        ["Squats - 3x10", "Push-ups - 3x8", "Rows - 3x10", "Plank - 3x30 sec"],
        GentleTotalBodyHome()),
      Variant(hasGym,
        ["Chair squats", "Wall push-ups", "Resistance bands", "Wall plank"],
        ["Chair squats", "Wall push-ups", "Step-ups", "Wall plank"]))
  }

  function GentleThreeLists(slot: nat, hasGym: bool): DayLists
  {
    if slot == 0 then GentleThreeTotalBodyLists(hasGym)
    else if slot == 1 then CardioFlowLists()
    else StrengthMobilityLists(hasGym)
  }
}
